=== FILE: README.md ===
# Patentscope applicant network and IPC trend table, in Dafny

Two scripts analyse a Patentscope result list exported to a spreadsheet.

- `PatentscopeApp_Inv.py` keeps at most one applicant per patent. It skips patents
  whose applicant is also an inventor, and applicants whose name resembles an inventor's.
  It then groups the records by lower-cased applicant with the union of their inventors,
  and joins two applicants by an edge weighted by the number of inventors they share.
  Finally it takes the twenty best-connected applicants and the subgraph they induce.
- `ParallelCoords_Patentscope.py` drops Rockwool's applications. It then gives every row
  a priority year (the earliest year in 'Priorities Data', else the publication year)
  and a main IPC code (the most frequent code in 'I P C', a letter, two digits and an
  optional letter, the first seen among equals). It counts the rows of the six most
  frequent codes per year from 2007 to 2022.

The model is a set of pure functions over immutable data, one module per step:

| module | file | what it models |
|---|---|---|
| `Options` | options.dfy | missing cells (`Option`) and dropping them (`Somes`) |
| `Text` | text.dfy | ASCII `lower`, `strip`, `in`, `endswith`, `rfind`, `split`, `join` |
| `Order` | order.dfy | Python's `<` on strings, the order of `groupby` keys |
| `Ranking` | ranking.dfy | a stable descending sort, `[:k]`, and `max` (first maximum wins) |
| `Names` | names.dfy | `clean_applicant_name`, `has_similar_value` |
| `Reducer` | reducer.dfy | step 1, the row loop |
| `Aggregator` | aggregator.dfy | step 2, the group-by with its set aggregation |
| `Network` | network.dfy | steps 3–4: `add_edge`, the pairwise scan, top twenty, subgraph |
| `Patterns` | patterns.dfy | `extract_earliest_year`, `extract_main_ipc` as regex scanners |
| `IpcTable` | ipc_table.dfy | the Rockwool filter, 'PriYear', the drop rule, the count table |

Regular expressions are modelled as left-to-right scanners in the way `re.findall`
walks a string: on a match it resumes right after the match. `\b` before a word
character holds at the start of the string or after a character outside
`[A-Za-z0-9_]`. Spreadsheet cells are `Option<string>`; a missing cell is `None`.

Where a plain reading of the scripts' intent and the code differ, the model follows the code:

- `clean_applicant_name` removes one ", Inc" per call, so it is not idempotent
  (`Names.CleanNotIdempotent`).
- The graph step keeps the twenty best-connected applicants, although the plot title
  says ten.
- When no row yields a record, `pd.DataFrame([])` has no 'Applicant' column and the
  script stops with a `KeyError`. `Network.ApplicantNetwork` returns `None` for that
  case; it does not return an empty graph.
- Groups are keyed by the lower-cased applicant without a second strip. Each node of
  the graph is named by that lower-cased key.
- Inventor tokens are compared exactly as split, so a leading space (from
  "A; B" split on ';') is kept. A missing 'Inventors' cell becomes the single token "",
  and so does an empty piece such as the one after a trailing ';' in "A;". Every applicant
  holding "" therefore shares that token with every other such applicant, and the graph
  joins each pair by an edge of weight at least 1: the number of all the inventor tokens
  the two share (`Network.MissingInventorsLinked`, `Network.BuildGraphSpec`). Nodes enter the graph only through `add_edge`, so no
  node is isolated.
- `extract_main_ipc` can never reach its `short_codes[0]` fallback: `most_common(1)`
  of a non-empty list always has an entry.

## Model

| member | source | states |
|---|---|---|
| Text.Lower | PatentscopeApp_Inv.py:25-26 | ASCII `str.lower()` never changes the length, so an index found in `name.lower()` is a valid index of `name` |
| Text.LowerAt | PatentscopeApp_Inv.py:25-26 | `str.lower()` folds each character on its own: position `i` of the result is the folded character `i` of the input |
| Text.EndsWith | PatentscopeApp_Inv.py:25-26 | `s.endswith(suffix)` holds exactly when `s` is some text followed by `suffix`; then `s.rfind(suffix)` is `len(s) - len(suffix)`, the index the cut at :26 relies on |
| Text.Strip | PatentscopeApp_Inv.py:24 | `str.strip()` leaves no surrounding whitespace and never lengthens the string |
| Text.Split | PatentscopeApp_Inv.py:19-20 | `str.split(sep)` always yields at least one piece, no piece contains `sep`, and joining the pieces with `sep` gives the input back |
| Text.SplitJoin | PatentscopeApp_Inv.py:64 | splitting a "; "-joined list on "; " gives the concatenation of each part's own split: no token is lost or invented at the joints |
| Text.SplitJoinTokens | PatentscopeApp_Inv.py:56-64 | tokens that hold no "; " survive a `'; '.join` followed by `split('; ')` unchanged |
| Text.Contains | PatentscopeApp_Inv.py:34 | `pat in s` is true exactly when `pat` occurs at some position of `s` |
| Text.RFind | PatentscopeApp_Inv.py:26 | `rfind` returns the last occurrence, or -1 when there is none |
| Names.CleanApplicantName | PatentscopeApp_Inv.py:23-27 | the cleaned name has no surrounding whitespace |
| Names.CutIncSpec | PatentscopeApp_Inv.py:25-26 | the cut at `rfind(", inc")` removes exactly the matched ", inc" or ", inc." suffix and leaves a prefix |
| Names.CleanApplicantNameSpec | PatentscopeApp_Inv.py:23-27 | the result is a prefix of the stripped name: the name itself without the suffix, else the stripped text before the last five or six characters |
| Names.CleanDropsOneInc | PatentscopeApp_Inv.py:23-27 | a stripped non-empty name followed by ", Inc" cleans back to that name |
| Names.CleanNotIdempotent | PatentscopeApp_Inv.py:23-27 | a name ending in ", Inc, Inc" loses one ", Inc" per call, so a second call changes the result again |
| Names.CleanFixpoint | PatentscopeApp_Inv.py:23-27 | a cleaned name that no longer ends in ", inc" is a fixed point |
| Names.AnyWindowIn | PatentscopeApp_Inv.py:34 | the `any(...)` over windows is true exactly when some five-character window of the applicant occurs in the inventor |
| Names.HasSimilarValue | PatentscopeApp_Inv.py:30-36 | applicants shorter than five characters once stripped, or an empty inventor list, are never similar |
| Names.HasSimilarValueSpec | PatentscopeApp_Inv.py:30-36 | true exactly when some inventor shares a five-character window with the applicant, both lower-cased and stripped |
| Names.SimilarMonotone | PatentscopeApp_Inv.py:32-35 | adding inventors never makes a similar applicant dissimilar |
| Names.SimilarUsesOnlyElements | PatentscopeApp_Inv.py:32-35 | similarity depends only on which inventors are listed, not on their order or repetition |
| Names.ExactMatchIsSimilar | PatentscopeApp_Inv.py:34-47 | an applicant of five or more characters that equals an inventor up to strip and case is also similar to it |
| Reducer.Tokens | PatentscopeApp_Inv.py:19-20 | a missing cell becomes [""], never the empty list |
| Reducer.TokensSpec | PatentscopeApp_Inv.py:19-20 | the tokens hold no ';' and re-join with ';' to the cell's text |
| Reducer.MatchesSomeInventorSpec | PatentscopeApp_Inv.py:47 | the inner `any` holds exactly when some inventor equals the applicant after strip and lower-case |
| Reducer.AnyExactMatchSpec | PatentscopeApp_Inv.py:47 | the skip test holds exactly when some applicant–inventor pair is equal after strip and lower-case |
| Reducer.Survivors | PatentscopeApp_Inv.py:51 | the filtered list is no longer than the applicants and every entry is stripped |
| Reducer.SurvivorsHead | PatentscopeApp_Inv.py:51-54 | the filtered list is non-empty exactly when some applicant is dissimilar, and its head is the cleaned first dissimilar applicant |
| Reducer.ReduceRow | PatentscopeApp_Inv.py:46-56 | an exact match yields no record; a record has a non-empty stripped applicant and the inventors joined with "; " |
| Reducer.ReduceRowSelects | PatentscopeApp_Inv.py:46-56 | a record names the cleaned first dissimilar applicant; no record means an exact match, no dissimilar applicant, or one that cleans to "" |
| Reducer.EmitsExactly | PatentscopeApp_Inv.py:46-56 | a row yields a record exactly when there is no exact match and its first dissimilar applicant cleans to a non-empty name |
| Reducer.ReduceRows | PatentscopeApp_Inv.py:39-56 | each row contributes at most one record |
| Reducer.ReduceRowsProvenance | PatentscopeApp_Inv.py:39-56 | every record comes from some row, and every row that yields a record has it in the output |
| Reducer.EmittedInventorsRoundTrip | PatentscopeApp_Inv.py:56-64 | re-splitting a record's inventors on "; " gives back exactly the tokens of the row's cell |
| Aggregator.InsertRow | PatentscopeApp_Inv.py:63 | adding a record keeps the group keys strictly sorted |
| Aggregator.InsertRowLookup | PatentscopeApp_Inv.py:63-64 | adding a record changes only its own key's group, which gains the record's tokens |
| Aggregator.GroupBy | PatentscopeApp_Inv.py:62-65 | groups come out in sorted key order, and there is at least one group when there is a record |
| Aggregator.AggregateIsUnion | PatentscopeApp_Inv.py:64 | `set('; '.join(x).split('; '))` is the union of the tokens of each string in `x` |
| Aggregator.GroupByLookup | PatentscopeApp_Inv.py:62-65 | a key has a group exactly when some record has that key, and the group is the union of those records' tokens |
| Aggregator.GroupByMatchesAggregation | PatentscopeApp_Inv.py:62-65 | the group of a key is exactly the aggregation lambda applied to that key's inventors strings |
| Aggregator.RejoinedGroup | PatentscopeApp_Inv.py:64-80 | writing a group as `'; '.join(set)` in any order and splitting it again gives back exactly the set |
| Aggregator.UnionNonEmpty | PatentscopeApp_Inv.py:64 | no group is empty |
| Order.LexTotal | PatentscopeApp_Inv.py:63 | distinct keys are ordered one way or the other |
| Order.LexTransitive | PatentscopeApp_Inv.py:63 | the key order is transitive |
| Network.AddEdgeAt | PatentscopeApp_Inv.py:83 | `add_edge(u, v, w)` adds the edge both ways with weight `w` and leaves every other entry as it was |
| Network.AddEdgeNodes | PatentscopeApp_Inv.py:83 | `add_edge` adds exactly the two endpoints as nodes |
| Network.AddEdge | PatentscopeApp_Inv.py:83 | the node list and the adjacency keep describing the same nodes, once each |
| Network.BuildGraph | PatentscopeApp_Inv.py:73-83 | the built graph's node list and adjacency agree |
| Network.BuildGraphSpec | PatentscopeApp_Inv.py:73-83 | two groups are joined exactly when they share an inventor, weighted by the number shared; edges are symmetric, join distinct keys, and every node has one |
| Network.NeighboursOfGroup | PatentscopeApp_Inv.py:73-86 | a group's neighbours are exactly the groups it shares an inventor with, so its degree is their number |
| Network.MissingInventorsLinked | PatentscopeApp_Inv.py:20-83 | two groups that both hold the token "" (from a missing inventors cell or an empty piece) are joined by an edge in both directions, whose weight is the number of all their shared tokens and so at least 1 |
| Network.TopConnected | PatentscopeApp_Inv.py:86-87 | the selection has min(20, number of nodes) entries |
| Network.TopConnectedSpec | PatentscopeApp_Inv.py:86-87 | the selected nodes are distinct nodes of the graph; no node left out has a higher degree; among equal degrees node order is kept |
| Network.Induced | PatentscopeApp_Inv.py:88 | the subgraph has an edge exactly when the graph has it between two selected nodes, with the same weight |
| Network.ApplicantNetwork | PatentscopeApp_Inv.py:39-88 | no record gives the `KeyError` outcome; otherwise the drawn graph holds exactly the edges between the selected applicants |
| Ranking.TopByKey | PatentscopeApp_Inv.py:86 | `sorted(..., reverse=True)[:k]` keeps min(k, n) elements in descending key order, none outranked by an element left out |
| Ranking.SortDescStable | PatentscopeApp_Inv.py:86 | the sort is stable: elements of equal key keep their relative order |
| Ranking.SortDescSpec | PatentscopeApp_Inv.py:86 | the sort orders by descending key and is a permutation |
| Ranking.TopByKeyDistinct | PatentscopeApp_Inv.py:86-87 | selecting from distinct nodes yields distinct nodes |
| Ranking.FirstMaxIndex | ParallelCoords_Patentscope.py:71-72 | `max` returns the first element of maximal key |
| IpcTable.MentionsRockwool | ParallelCoords_Patentscope.py:23-24 | a missing applicants cell never matches (`na=False`) |
| IpcTable.RockwoolAnyCase | ParallelCoords_Patentscope.py:23-24 | "Rockwool" in any letter case anywhere in the cell is caught (`case=False`) |
| IpcTable.RockwoolFound | ParallelCoords_Patentscope.py:23-24 | conversely, a cell that matches holds "Rockwool" in some letter case at some position, so with `RockwoolAnyCase` the match is exactly case-insensitive containment |
| IpcTable.DropRockwool | ParallelCoords_Patentscope.py:23-24 | the filter never adds rows |
| IpcTable.DropRockwoolSpec | ParallelCoords_Patentscope.py:23-24 | a row is kept exactly when its applicants do not mention Rockwool |
| Patterns.YearValue | ParallelCoords_Patentscope.py:38-41 | every matched year lies between 1900 and 2099 |
| Patterns.FindYearsComplete | ParallelCoords_Patentscope.py:38 | `findall` resuming after each match finds the same years as trying every position: year matches cannot overlap |
| Patterns.YearsFromSpec | ParallelCoords_Patentscope.py:38 | a year is listed exactly when the pattern matches at some position with that value |
| Patterns.GluedYearIgnored | ParallelCoords_Patentscope.py:38 | four digits with a word character directly before or after are not a year |
| Patterns.MinOf | ParallelCoords_Patentscope.py:44 | `min` returns an element no larger than any other |
| Patterns.ExtractEarliestYear | ParallelCoords_Patentscope.py:33-44 | a missing cell gives `None`; a year found lies between 1900 and 2099 |
| Patterns.ExtractEarliestYearSpec | ParallelCoords_Patentscope.py:33-44 | `None` exactly when no year matches; otherwise a matched year no later than any other match |
| Patterns.FindCodesComplete | ParallelCoords_Patentscope.py:62 | `findall` resuming after each match finds the same codes as trying every position |
| Patterns.FindCodesWellFormed | ParallelCoords_Patentscope.py:62 | every code found is a letter, two digits and an optional letter |
| Patterns.CodesFromSpec | ParallelCoords_Patentscope.py:62-65 | some code is found exactly when the pattern matches somewhere |
| Patterns.ShortCodesIdentity | ParallelCoords_Patentscope.py:68 | `code[:4]` changes no code found, since no match is longer than four characters |
| Patterns.Dedup | ParallelCoords_Patentscope.py:71 | the counter's keys are the distinct codes, each once |
| Patterns.DedupOrder | ParallelCoords_Patentscope.py:71 | the counter's keys are in order of first occurrence |
| Patterns.MostCommon | ParallelCoords_Patentscope.py:71-75 | `most_common(1)` is empty exactly for an empty list and otherwise names an element of it |
| Patterns.MostCommonMaximal | ParallelCoords_Patentscope.py:71-75 | the most common element occurs at least as often as any other |
| Patterns.MostCommonFirst | ParallelCoords_Patentscope.py:71-75 | every element first seen before the winner occurs strictly less often: ties go to the element seen first |
| Patterns.ExtractMainIpc | ParallelCoords_Patentscope.py:57-75 | a missing cell gives `None`; a result is a well-formed code |
| Patterns.ExtractMainIpcSpec | ParallelCoords_Patentscope.py:57-75 | `None` exactly when no code matches; otherwise a matched code of maximal count, the first met among equals |
| IpcTable.PriYear | ParallelCoords_Patentscope.py:48-94 | a year taken from the priorities lies between 1900 and 2099 |
| IpcTable.PriYearSpec | ParallelCoords_Patentscope.py:48-94 | the earliest matched priority year wins; without one the publication year is used, and 0 when that is missing too |
| IpcTable.PrepareRow | ParallelCoords_Patentscope.py:97-98 | a kept row has a positive year and a well-formed main code |
| IpcTable.PrepareSpec | ParallelCoords_Patentscope.py:97-98 | the kept records are exactly the records of the rows that pass the drop rule |
| IpcTable.TopIpcs | ParallelCoords_Patentscope.py:106-113 | min(6, number of distinct codes) codes are selected |
| IpcTable.TopIpcsSpec | ParallelCoords_Patentscope.py:106-113 | the selected codes are distinct codes of the column, and none left out is more frequent than one selected |
| IpcTable.YearRowTotal | ParallelCoords_Patentscope.py:116-124 | a table row adds up to the code's frequency minus its records dated outside 2007–2022: each record is counted once |
| IpcTable.CountsRows | ParallelCoords_Patentscope.py:23-124 | the count of a (code, year) record equals the number of input rows, not Rockwool's, that prepare to it |
| IpcTable.YearlyIpcCounts | ParallelCoords_Patentscope.py:106-124 | the table has at most six rows of sixteen columns each |
| IpcTable.YearlyIpcCountsSpec | ParallelCoords_Patentscope.py:23-124 | each cell counts the input rows, not Rockwool's, with that main code and priority year, and the codes are the most frequent ones |

## Left out

- Reading and writing spreadsheets, `tqdm` progress bars, file paths and `print`: I/O only.
- Drawing: `circular_layout`, `nx.draw`, edge labels and the parallel-coordinates plot with its Bézier paths.
- The normalisation `ipc_yearly_counts.div(...max(axis=1))`: floating point, outside the counted table.
- `pd.to_datetime(..., format='%d.%m.%Y').dt.year`: date parsing is not modelled; 'PubYear' is an input `Option<int>`.
- `value_counts` tie order: pandas does not fix it. The model breaks ties by first occurrence and claims only that no code left out is more frequent than one selected.
- Unicode: `lower`, `strip`, `\w` and `\d` are modelled on ASCII only.
- `fillna(..., inplace=True)` on the 'PriYear' column selection: the model takes the fallback as intended (a pure per-row choice). Whether pandas writes it back through the chained selection depends on the pandas version.
- Non-string cells: cells are modelled as strings. `str(priorities)` and `str(ipc_codes)` of a number read from the sheet are not modelled. Nor is a numeric 'Applicants' or 'Inventors' cell: in PatentscopeApp_Inv.py `.str.split` turns it into NaN and iterating that raises `TypeError`. In ParallelCoords_Patentscope.py `str.contains(..., na=False)` keeps such a row, but only when the column also holds some text.
- Network.Induced: the node order of `G.subgraph` is not claimed; networkx does not promise one.
- Network.Degree: self-loops, which count twice in networkx, cannot arise (`i < j` and distinct keys), so degree is the number of neighbours.
- IpcTable.DropRockwool: keeps every row whose applicants cell is missing. When no cell of the 'Applicants' column is text (all empty, so pandas reads the column as float64, or all numeric), `df['Applicants'].str` raises `AttributeError` at ParallelCoords_Patentscope.py:23 instead; that column-level failure is not modelled, because cells are modelled one by one as `Option<string>`.
- The `print` of the twenty most frequent IPC codes: display only.

=== FILE: aggregator.dfy ===
/**
 * Step 2 of PatentscopeApp_Inv.py: the records are grouped by their
 * lower-cased applicant, and each group's inventors become the set of the
 * "; "-separated tokens of its records.
 */
module Aggregator {
  import opened Options
  import opened Text
  import opened Order
  import opened Reducer

  /** One row of `compacted_data`: the group key and its set of inventor tokens. */
  datatype Group = Group(key: string, inventors: set<string>)

  /** The grouping key: the applicant lower-cased (not stripped again). */
  function KeyOf(e: Emitted): string {
    Lower(e.applicant)
  }

  /** The tokens `'; '.join(x).split('; ')` contributes for one record. */
  function TokenSet(e: Emitted): set<string> {
    Elems(Split(e.inventors, Semi))
  }

  /** Group keys strictly increase, as pandas' sorted `groupby` leaves them. */
  predicate SortedKeys(gs: seq<Group>) {
    forall i, j :: 0 <= i < j < |gs| ==> LexLess(gs[i].key, gs[j].key)
  }

  /** Every key of `gs` sorts after `b`. */
  predicate AllAbove(b: string, gs: seq<Group>) {
    forall i :: 0 <= i < |gs| ==> LexLess(b, gs[i].key)
  }

  /** The inventors stored under key `k`, if any. */
  function Lookup(gs: seq<Group>, k: string): (r: Option<set<string>>)
    ensures |gs| == 0 ==> r.None?
  {
    if |gs| == 0 then None
    else if gs[0].key == k then Some(gs[0].inventors)
    else Lookup(gs[1..], k)
  }

  /** No key below the first one of a sorted list is stored in it. */
  lemma {:induction false} LookupBelow(gs: seq<Group>, k: string)
    requires AllAbove(k, gs)
    ensures Lookup(gs, k).None?
    decreases |gs|
  {
    if |gs| > 0 {
      LexIrreflexive(k);
      LookupBelow(gs[1..], k);
    }
  }

  /** Adds one record's key and tokens: merged into the group of an equal key,
      or a new group at its sorted place. */
  function InsertRow(gs: seq<Group>, key: string, invs: set<string>): (r: seq<Group>)
    requires SortedKeys(gs)
    ensures SortedKeys(r)
    ensures |r| >= 1 && (r[0].key == key || (|gs| > 0 && r[0].key == gs[0].key))
    decreases |gs|
  {
    if |gs| == 0 then [Group(key, invs)]
    else if gs[0].key == key then
      var r := [Group(key, gs[0].inventors + invs)] + gs[1..];
      assert forall i :: 0 < i < |r| ==> r[i] == gs[i];
      r
    else if LexLess(key, gs[0].key) then
      var r := [Group(key, invs)] + gs;
      forall i, j | 0 <= i < j < |r|
        ensures LexLess(r[i].key, r[j].key)
      {
        if i == 0 && j > 1 {
          LexTransitive(key, gs[0].key, gs[j - 1].key);
        }
      }
      r
    else
      LexTotal(key, gs[0].key);
      var rest := InsertRow(gs[1..], key, invs);
      assert LexLess(gs[0].key, rest[0].key);
      forall j | 0 < j < |rest|
        ensures LexLess(gs[0].key, rest[j].key)
      {
        LexTransitive(gs[0].key, rest[0].key, rest[j].key);
      }
      [gs[0]] + rest
  }

  /** Inserting changes only the entry of the inserted key, which gains `invs`. */
  lemma {:induction false} InsertRowLookup(gs: seq<Group>, key: string, invs: set<string>, k: string)
    requires SortedKeys(gs)
    ensures Lookup(InsertRow(gs, key, invs), k)
         == if k == key then Some(Lookup(gs, k).GetOr({}) + invs) else Lookup(gs, k)
    decreases |gs|
  {
    if |gs| == 0 {
      assert Lookup(gs, k).GetOr({}) + invs == invs;
    } else if gs[0].key == key {
      if k != key {
        assert InsertRow(gs, key, invs)[1..] == gs[1..];
      }
    } else if LexLess(key, gs[0].key) {
      if k == key {
        assert AllAbove(k, gs) by {
          forall i | 0 <= i < |gs|
            ensures LexLess(k, gs[i].key)
          {
            if i > 0 {
              LexTransitive(k, gs[0].key, gs[i].key);
            }
          }
        }
        LookupBelow(gs, k);
        assert Lookup(gs, k).GetOr({}) + invs == invs;
      } else {
        assert InsertRow(gs, key, invs)[1..] == gs;
      }
    } else {
      InsertRowLookup(gs[1..], key, invs, k);
      assert InsertRow(gs, key, invs)[1..] == InsertRow(gs[1..], key, invs);
    }
  }

  /** `filtered_data.groupby(filtered_data['Applicant'].str.lower())`, with
      each group's inventors aggregated to a set. */
  function GroupBy(rows: seq<Emitted>): (r: seq<Group>)
    ensures SortedKeys(r)
    ensures |rows| > 0 ==> |r| > 0
  {
    if |rows| == 0 then []
    else
      var last := rows[|rows| - 1];
      InsertRow(GroupBy(rows[..|rows| - 1]), KeyOf(last), TokenSet(last))
  }

  // ---------------------------------------------------------------------------
  // What a group holds
  // ---------------------------------------------------------------------------

  /** The `Inventors` strings of the records with key `k`, in row order: the
      series `x` pandas hands to the aggregation. */
  function InvStrings(rows: seq<Emitted>, k: string): (r: seq<string>)
    ensures |r| <= |rows|
  {
    if |rows| == 0 then []
    else
      var last := rows[|rows| - 1];
      InvStrings(rows[..|rows| - 1], k) + (if KeyOf(last) == k then [last.inventors] else [])
  }

  /** The union of the "; "-split tokens of `xs`. */
  function UnionTokens(xs: seq<string>): set<string> {
    if |xs| == 0 then {} else Elems(Split(xs[0], Semi)) + UnionTokens(xs[1..])
  }

  lemma {:induction false} UnionTokensAppend(xs: seq<string>, ys: seq<string>)
    ensures UnionTokens(xs + ys) == UnionTokens(xs) + UnionTokens(ys)
    decreases |xs|
  {
    if |xs| > 0 {
      UnionTokensAppend(xs[1..], ys);
      assert (xs + ys)[1..] == xs[1..] + ys;
    } else {
      assert xs + ys == ys;
    }
  }

  lemma {:induction false} FlattenElems(xs: seq<string>)
    ensures Elems(Flatten(SplitAll(xs))) == UnionTokens(xs)
    decreases |xs|
  {
    if |xs| > 0 {
      FlattenElems(xs[1..]);
      assert SplitAll(xs)[1..] == SplitAll(xs[1..]);
      ElemsAppend(Split(xs[0], Semi), Flatten(SplitAll(xs[1..])));
    }
  }

  /** The aggregation lambda `set('; '.join(x).split('; '))` collects exactly
      the tokens of the group's records: no token is lost or invented at the
      joints, because "; " cannot overlap itself. */
  lemma {:induction false} AggregateIsUnion(xs: seq<string>)
    requires |xs| >= 1
    ensures Elems(Split(Join(xs, Semi), Semi)) == UnionTokens(xs)
  {
    SplitJoin(xs);
    FlattenElems(xs);
  }

  /** A key has a group exactly when some record has that key, and the group
      holds the union of the tokens of those records. */
  lemma {:induction false} GroupByLookup(rows: seq<Emitted>, k: string)
    ensures Lookup(GroupBy(rows), k)
         == if |InvStrings(rows, k)| == 0 then None else Some(UnionTokens(InvStrings(rows, k)))
    decreases |rows|
  {
    if |rows| > 0 {
      var init, last := rows[..|rows| - 1], rows[|rows| - 1];
      GroupByLookup(init, k);
      InsertRowLookup(GroupBy(init), KeyOf(last), TokenSet(last), k);
      if KeyOf(last) == k {
        UnionTokensAppend(InvStrings(init, k), [last.inventors]);
        assert UnionTokens([last.inventors]) == TokenSet(last);
      } else {
        assert InvStrings(rows, k) == InvStrings(init, k);
      }
    }
  }

  /** Some record has key `k` exactly when `k` has inventors strings. */
  lemma {:induction false} InvStringsPresent(rows: seq<Emitted>, k: string)
    ensures |InvStrings(rows, k)| > 0 <==> exists i :: 0 <= i < |rows| && KeyOf(rows[i]) == k
    decreases |rows|
  {
    if |rows| > 0 {
      var init := rows[..|rows| - 1];
      InvStringsPresent(init, k);
      assert forall i :: 0 <= i < |init| ==> init[i] == rows[i];
    }
  }

  /** Step 2 as the script states it: a key is grouped exactly when some
      record carries it, and its group holds `set('; '.join(x).split('; '))`
      for the series `x` of that key's `Inventors` strings. */
  lemma GroupByMatchesAggregation(rows: seq<Emitted>, k: string)
    ensures Lookup(GroupBy(rows), k).Some? <==> exists i :: 0 <= i < |rows| && KeyOf(rows[i]) == k
    ensures Lookup(GroupBy(rows), k).Some? ==>
              Lookup(GroupBy(rows), k).value == Elems(Split(Join(InvStrings(rows, k), Semi), Semi))
  {
    GroupByLookup(rows, k);
    InvStringsPresent(rows, k);
    if |InvStrings(rows, k)| > 0 {
      AggregateIsUnion(InvStrings(rows, k));
    }
  }

  // ---------------------------------------------------------------------------
  // Writing a group back as a string
  // ---------------------------------------------------------------------------

  /** No token of any group contains "; ". */
  lemma {:induction false} UnionTokensFree(xs: seq<string>)
    ensures forall t :: t in UnionTokens(xs) ==> !IsSubstring(Semi, t)
    decreases |xs|
  {
    if |xs| > 0 {
      UnionTokensFree(xs[1..]);
      var p := Split(xs[0], Semi);
      forall t | t in Elems(p)
        ensures !IsSubstring(Semi, t)
      {
        var i :| 0 <= i < |p| && p[i] == t;
      }
    }
  }

  /** The group's set is written out as `'; '.join(set)` in some enumeration
      order; splitting that string on "; " (as step 3 does) gives back exactly
      the set, whichever order was used. */
  lemma {:induction false} RejoinedGroup(rows: seq<Emitted>, k: string, order: seq<string>)
    requires Lookup(GroupBy(rows), k).Some?
    requires Elems(order) == Lookup(GroupBy(rows), k).value
    ensures Elems(Split(Join(order, Semi), Semi)) == Lookup(GroupBy(rows), k).value
  {
    GroupByLookup(rows, k);
    var xs := InvStrings(rows, k);
    UnionTokensFree(xs);
    UnionNonEmpty(xs);
    assert order[0] in Elems(order);
    forall i | 0 <= i < |order|
      ensures !IsSubstring(Semi, order[i])
    {
      assert order[i] in Elems(order);
    }
    SplitJoinTokens(order);
  }

  /** Every record contributes at least one token, so no group is empty. */
  lemma {:induction false} UnionNonEmpty(xs: seq<string>)
    requires |xs| > 0
    ensures UnionTokens(xs) != {}
  {
    var p := Split(xs[0], Semi);
    assert p[0] in Elems(p);
  }
}

=== FILE: ipc_table.dfy ===
/**
 * The table ParallelCoords_Patentscope.py plots: applications of Rockwool
 * are dropped, each remaining row gets a priority year and a main IPC code,
 * rows lacking either are dropped, and for the six most frequent main IPC
 * codes the rows are counted per priority year from 2007 to 2022.
 */
module IpcTable {
  import opened Options
  import opened Text
  import opened Ranking
  import opened Patterns

  /** The columns of one exported row the script reads. `pubYear` is the year
      of the parsed 'Publication Date', `None` when it does not parse. */
  datatype PatentRow = PatentRow(
    applicants: Option<string>,
    pubYear: Option<int>,
    priorities: Option<string>,
    ipc: Option<string>)

  /** A row that survives the cleaning: its main IPC code and priority year. */
  datatype Record = Record(ipc: string, year: int)

  /** The table: one row per selected IPC code, one column per year. */
  datatype YearTable = YearTable(ipcs: seq<string>, years: seq<int>, counts: seq<seq<nat>>)

  /** The applicant matched case-insensitively by the filter. */
  const Rockwool: string := "rockwool"

  /** How many IPC codes are plotted. */
  const TopN: nat := 6

  /** The years plotted: `range(2007, 2023)`. */
  const FirstYear: int := 2007
  const YearSpan: nat := 16

  // ---------------------------------------------------------------------------
  // The Rockwool filter
  // ---------------------------------------------------------------------------

  /** `str.contains('Rockwool', case=False, na=False)`: a missing cell never
      matches. */
  function MentionsRockwool(cell: Option<string>): (r: bool)
    ensures cell.None? ==> !r
  {
    cell.Some? && Contains(Lower(cell.value), Rockwool)
  }

  /** The name, in some letter case, starts at index `m` of `s`. */
  predicate RockwoolAt(s: string, m: nat) {
    m + |Rockwool| <= |s| && Lower(s[m..m + |Rockwool|]) == Rockwool
  }

  /** Any spelling of the name, in any letter case, is caught. */
  lemma RockwoolAnyCase(s: string, m: nat)
    requires RockwoolAt(s, m)
    ensures MentionsRockwool(Some(s))
  {
    LowerSlice(s, m, m + |Rockwool|);
    assert OccursAt(Rockwool, Lower(s), m);
  }

  /** Conversely, a cell that mentions the name holds it, in some letter case,
      at some position: together with `RockwoolAnyCase` this is `case=False`
      containment. */
  lemma RockwoolFound(s: string)
    requires MentionsRockwool(Some(s))
    ensures exists m: nat :: RockwoolAt(s, m)
  {
    var m :| OccursAt(Rockwool, Lower(s), m);
    LowerSlice(s, m, m + |Rockwool|);
    assert RockwoolAt(s, m);
  }

  /** `df[~df['Applicants'].str.contains(...)]`. */
  function DropRockwool(rows: seq<PatentRow>): (r: seq<PatentRow>)
    ensures |r| <= |rows|
  {
    if |rows| == 0 then []
    else (if MentionsRockwool(rows[0].applicants) then [] else [rows[0]]) + DropRockwool(rows[1..])
  }

  /** A row is kept exactly when its applicants do not mention Rockwool; in
      particular a row with a missing applicants cell is kept, provided the
      column holds some text (otherwise pandas' `.str` raises). */
  lemma {:induction false} DropRockwoolSpec(rows: seq<PatentRow>)
    ensures forall row :: row in DropRockwool(rows) <==> row in rows && !MentionsRockwool(row.applicants)
    decreases |rows|
  {
    if |rows| > 0 {
      DropRockwoolSpec(rows[1..]);
      assert forall row :: row in rows <==> row == rows[0] || row in rows[1..] by {
        assert rows == [rows[0]] + rows[1..];
      }
    }
  }

  // ---------------------------------------------------------------------------
  // PriYear and MainIPC
  // ---------------------------------------------------------------------------

  /** 'PriYear' after the fallback to 'PubYear' and `to_numeric(...).fillna(0)`:
      the earliest priority year, else the publication year, else 0. */
  function PriYear(row: PatentRow): (y: int)
    ensures ExtractEarliestYear(row.priorities).Some? ==> 1900 <= y <= 2099
  {
    match ExtractEarliestYear(row.priorities)
    case Some(y) => y
    case None => row.pubYear.GetOr(0)
  }

  /** A priority year found in the cell wins and is the least one there;
      without one the publication year is used, and 0 when that is missing. */
  lemma PriYearSpec(row: PatentRow)
    ensures row.priorities.Some? && HasYear(row.priorities.value) ==>
              (exists q :: YearAt(row.priorities.value, q) && YearValue(row.priorities.value, q) == PriYear(row))
              && forall q :: YearAt(row.priorities.value, q) ==> PriYear(row) <= YearValue(row.priorities.value, q)
    ensures !(row.priorities.Some? && HasYear(row.priorities.value)) ==>
              PriYear(row) == (if row.pubYear.Some? then row.pubYear.value else 0)
  {
    if row.priorities.Some? {
      ExtractEarliestYearSpec(row.priorities.value);
    }
  }

  /** The row as the plotting step keeps it: dropped when 'PriYear' is not
      positive or 'MainIPC' is missing. */
  function PrepareRow(row: PatentRow): (r: Option<Record>)
    ensures r.Some? ==> r.value.year > 0 && IsIpcCode(r.value.ipc)
  {
    var y := PriYear(row);
    var m := ExtractMainIpc(row.ipc);
    if y > 0 && m.Some? then Some(Record(m.value, y)) else None
  }

  /** What one row contributes to the prepared column. */
  function Prepared(row: PatentRow): (r: seq<Record>)
    ensures |r| <= 1
  {
    match PrepareRow(row)
    case Some(x) => [x]
    case None => []
  }

  function Prepare(rows: seq<PatentRow>): (r: seq<Record>)
    ensures |r| <= |rows|
  {
    if |rows| == 0 then [] else Prepared(rows[0]) + Prepare(rows[1..])
  }

  /** Every record comes from a row, and every row that prepares is recorded. */
  lemma {:induction false} PrepareSpec(rows: seq<PatentRow>)
    ensures forall x :: x in Prepare(rows) <==> exists i :: 0 <= i < |rows| && PrepareRow(rows[i]) == Some(x)
    decreases |rows|
  {
    if |rows| > 0 {
      PrepareSpec(rows[1..]);
      forall x | (exists i :: 0 <= i < |rows| && PrepareRow(rows[i]) == Some(x))
        ensures x in Prepare(rows)
      {
        var i :| 0 <= i < |rows| && PrepareRow(rows[i]) == Some(x);
        if i > 0 {
          assert rows[1..][i - 1] == rows[i];
        }
      }
      forall x | x in Prepare(rows)
        ensures exists i :: 0 <= i < |rows| && PrepareRow(rows[i]) == Some(x)
      {
        if PrepareRow(rows[0]) != Some(x) {
          assert x !in Prepared(rows[0]);
          assert x in Prepare(rows[1..]);
          var i :| 0 <= i < |rows[1..]| && PrepareRow(rows[1..][i]) == Some(x);
          assert rows[i + 1] == rows[1..][i];
        }
      }
    }
  }

  // ---------------------------------------------------------------------------
  // Ranking the codes
  // ---------------------------------------------------------------------------

  /** The 'MainIPC' column. */
  function Ipcs(recs: seq<Record>): (r: seq<string>)
    ensures |r| == |recs|
  {
    if |recs| == 0 then [] else [recs[0].ipc] + Ipcs(recs[1..])
  }

  /** `value_counts()` as a key function. */
  function CountIn(xs: seq<string>): string -> int {
    c => Count(xs, c)
  }

  /** `value_counts().head(6).index`: the six codes seen most often. */
  function TopIpcs(recs: seq<Record>): (r: seq<string>)
    ensures |r| == Min(TopN, |Dedup(Ipcs(recs))|)
  {
    TopByKey(Dedup(Ipcs(recs)), CountIn(Ipcs(recs)), TopN)
  }

  /** The selected codes are distinct codes of the column, and no code left
      out is more frequent than one selected. */
  lemma {:induction false} TopIpcsSpec(recs: seq<Record>)
    ensures var r, xs := TopIpcs(recs), Ipcs(recs);
      && Distinct(r)
      && (forall i :: 0 <= i < |r| ==> r[i] in xs)
      && (forall x, y :: x in r && y in xs && y !in r ==> Count(xs, x) >= Count(xs, y))
  {
    var xs := Ipcs(recs);
    var d := Dedup(xs);
    var r := TopIpcs(recs);
    TopByKeyDistinct(d, CountIn(xs), TopN);
    forall i | 0 <= i < |r|
      ensures r[i] in xs
    {
      assert r[i] in multiset(d);
    }
    forall x, y | x in r && y in xs && y !in r
      ensures Count(xs, x) >= Count(xs, y)
    {
      assert y in d;
      assert y in multiset(d) - multiset(r);
      assert CountIn(xs)(x) >= CountIn(xs)(y);
    }
  }

  // ---------------------------------------------------------------------------
  // The count table
  // ---------------------------------------------------------------------------

  /** The column headers `range(2007, 2023)`: the years 2007 to 2022, ascending. */
  function Years(): (r: seq<int>)
    ensures forall y :: y in r <==> 2007 <= y <= 2022
    ensures forall i, j :: 0 <= i < j < |r| ==> r[i] < r[j]
  {
    var r := seq(YearSpan, j => FirstYear + j);
    assert forall y :: 2007 <= y <= 2022 ==> y in r by {
      forall y | 2007 <= y <= 2022
        ensures y in r
      {
        assert r[y - FirstYear] == y;
      }
    }
    r
  }

  /** One table row: `ipc_data['PriYear'].value_counts().get(year, 0)` for each
      year. */
  function YearRow(recs: seq<Record>, ipc: string): (r: seq<nat>)
    ensures |r| == YearSpan
  {
    seq<nat>(YearSpan, j => Count(recs, Record(ipc, FirstYear + j)))
  }

  function CountTable(recs: seq<Record>, top: seq<string>): (r: seq<seq<nat>>)
    ensures |r| == |top|
    ensures forall i :: 0 <= i < |r| ==> |r[i]| == YearSpan
  {
    seq(|top|, i requires 0 <= i < |top| => YearRow(recs, top[i]))
  }

  function Sum(s: seq<nat>): nat {
    if |s| == 0 then 0 else s[0] + Sum(s[1..])
  }

  lemma {:induction false} SumBump(s: seq<nat>, k: nat)
    requires k < |s|
    ensures Sum(s[k := s[k] + 1]) == Sum(s) + 1
    decreases |s|
  {
    if k > 0 {
      SumBump(s[1..], k - 1);
      assert s[k := s[k] + 1][1..] == s[1..][k - 1 := s[1..][k - 1] + 1];
    }
  }

  lemma {:induction false} SumZero(s: seq<nat>)
    requires forall i :: 0 <= i < |s| ==> s[i] == 0
    ensures Sum(s) == 0
    decreases |s|
  {
    if |s| > 0 {
      SumZero(s[1..]);
    }
  }

  /** The records of code `ipc` whose year falls outside the table. */
  function Outside(recs: seq<Record>, ipc: string): nat {
    if |recs| == 0 then 0
    else (if recs[0].ipc == ipc && !(FirstYear <= recs[0].year < FirstYear + YearSpan) then 1 else 0)
         + Outside(recs[1..], ipc)
  }

  /** Each record of a code is counted in exactly one year column, unless its
      year lies outside 2007..2022: a table row adds up to the code's
      frequency minus those records. */
  lemma {:induction false} YearRowTotal(recs: seq<Record>, ipc: string)
    ensures Sum(YearRow(recs, ipc)) + Outside(recs, ipc) == Count(Ipcs(recs), ipc)
    decreases |recs|
  {
    if |recs| > 0 {
      var r, rest := recs[0], recs[1..];
      YearRowTotal(rest, ipc);
      assert Ipcs(recs) == [r.ipc] + Ipcs(rest);
      assert Ipcs(recs)[1..] == Ipcs(rest);
      var row, row' := YearRow(recs, ipc), YearRow(rest, ipc);
      forall j | 0 <= j < YearSpan
        ensures row[j] == (if r == Record(ipc, FirstYear + j) then 1 else 0) + row'[j]
      {
        assert row[j] == Count(recs, Record(ipc, FirstYear + j));
        assert row'[j] == Count(rest, Record(ipc, FirstYear + j));
      }
      var inRange := FirstYear <= r.year < FirstYear + YearSpan;
      assert Count(Ipcs(recs), ipc) == (if r.ipc == ipc then 1 else 0) + Count(Ipcs(rest), ipc);
      assert Outside(recs, ipc) == (if r.ipc == ipc && !inRange then 1 else 0) + Outside(rest, ipc);
      if r.ipc == ipc && inRange {
        var k := r.year - FirstYear;
        assert row == row'[k := row'[k] + 1];
        SumBump(row', k);
      } else {
        assert row == row';
      }
    } else {
      forall j | 0 <= j < YearSpan
        ensures YearRow(recs, ipc)[j] == 0
      {
        assert YearRow(recs, ipc)[j] == Count(recs, Record(ipc, FirstYear + j));
      }
      SumZero(YearRow(recs, ipc));
    }
  }

  /** Counting over a concatenation adds the counts of the parts. */
  lemma {:induction false} CountConcat<T>(a: seq<T>, b: seq<T>, x: T)
    ensures Count(a + b, x) == Count(a, x) + Count(b, x)
    decreases |a|
  {
    if |a| > 0 {
      CountConcat(a[1..], b, x);
      TailConcat(a, b);
    } else {
      assert a + b == b;
    }
  }

  /** The rows of the input that survive both filters as record `x`. */
  function RowsAs(rows: seq<PatentRow>, x: Record): nat {
    if |rows| == 0 then 0
    else (if !MentionsRockwool(rows[0].applicants) && PrepareRow(rows[0]) == Some(x) then 1 else 0)
         + RowsAs(rows[1..], x)
  }

  /** A cell counts exactly the input rows that are not Rockwool's and whose
      main code and priority year are the cell's. */
  lemma {:induction false} CountsRows(rows: seq<PatentRow>, x: Record)
    ensures Count(Prepare(DropRockwool(rows)), x) == RowsAs(rows, x)
    decreases |rows|
  {
    if |rows| > 0 {
      CountsRows(rows[1..], x);
      var head := if MentionsRockwool(rows[0].applicants) then [] else [rows[0]];
      assert DropRockwool(rows) == head + DropRockwool(rows[1..]);
      PrepareConcat(head, DropRockwool(rows[1..]));
      CountConcat(Prepare(head), Prepare(DropRockwool(rows[1..])), x);
    }
  }

  lemma {:induction false} PrepareConcat(a: seq<PatentRow>, b: seq<PatentRow>)
    ensures Prepare(a + b) == Prepare(a) + Prepare(b)
    decreases |a|
  {
    if |a| > 0 {
      var ab := a + b;
      TailConcat(a, b);
      PrepareConcat(a[1..], b);
      assert Prepare(ab) == Prepared(ab[0]) + Prepare(ab[1..]);
      assert Prepare(a) == Prepared(a[0]) + Prepare(a[1..]);
      Regroup(Prepared(a[0]), Prepare(a[1..]), Prepare(b));
    } else {
      assert a + b == b;
    }
  }

  // ---------------------------------------------------------------------------
  // The whole script
  // ---------------------------------------------------------------------------

  /** `ipc_yearly_counts` computed from the exported rows. */
  function YearlyIpcCounts(rows: seq<PatentRow>): (t: YearTable)
    ensures |t.ipcs| <= TopN && |t.years| == YearSpan
    ensures |t.counts| == |t.ipcs|
    ensures forall i :: 0 <= i < |t.counts| ==> |t.counts[i]| == YearSpan
  {
    var recs := Prepare(DropRockwool(rows));
    var top := TopIpcs(recs);
    YearTable(top, Years(), CountTable(recs, top))
  }

  /** Each cell counts the input rows, not Rockwool's, whose main code and
      priority year are the cell's; the codes are the most frequent ones. */
  lemma {:induction false} YearlyIpcCountsSpec(rows: seq<PatentRow>)
    ensures forall i, j :: 0 <= i < |YearlyIpcCounts(rows).ipcs| && 0 <= j < YearSpan ==>
              YearlyIpcCounts(rows).counts[i][j]
              == RowsAs(rows, Record(YearlyIpcCounts(rows).ipcs[i], YearlyIpcCounts(rows).years[j]))
    ensures forall x, y :: x in YearlyIpcCounts(rows).ipcs && y in Ipcs(Prepare(DropRockwool(rows)))
                           && y !in YearlyIpcCounts(rows).ipcs ==>
              Count(Ipcs(Prepare(DropRockwool(rows))), x) >= Count(Ipcs(Prepare(DropRockwool(rows))), y)
  {
    var recs := Prepare(DropRockwool(rows));
    var t := YearlyIpcCounts(rows);
    assert t == YearTable(TopIpcs(recs), Years(), CountTable(recs, TopIpcs(recs)));
    TopIpcsSpec(recs);
    forall i, j | 0 <= i < |t.ipcs| && 0 <= j < YearSpan
      ensures t.counts[i][j] == RowsAs(rows, Record(t.ipcs[i], t.years[j]))
    {
      CellCount(recs, t.ipcs, i, j);
      CountsRows(rows, Record(t.ipcs[i], t.years[j]));
    }
  }

  /** The cell (i, j) of the table counts the records of code `top[i]` dated
      in the j-th year of the range. */
  lemma CellCount(recs: seq<Record>, top: seq<string>, i: nat, j: nat)
    requires i < |top| && j < YearSpan
    ensures CountTable(recs, top)[i][j] == Count(recs, Record(top[i], Years()[j]))
  {
    assert CountTable(recs, top)[i] == YearRow(recs, top[i]);
  }
}

=== FILE: names.dfy ===
/**
 * Applicant name handling of PatentscopeApp_Inv.py: `clean_applicant_name`
 * and `has_similar_value`.
 */
module Names {
  import opened Text

  const Inc: string := ", inc"
  const IncDot: string := ", inc."

  /** The condition under which `clean_applicant_name` cuts: the lower-cased
      (already stripped) name ends with ", inc" or ", inc.". */
  predicate HasIncSuffix(n: string) {
    EndsWith(Lower(n), Inc) || EndsWith(Lower(n), IncDot)
  }

  /** The last ", inc" of a name ending with ", inc" is that suffix itself. */
  lemma RFindIncAtEnd(low: string)
    requires EndsWith(low, Inc)
    ensures RFind(low, Inc) == |low| - 5
  {
    assert OccursAt(Inc, low, |low| - 5);
  }

  /** The last ", inc" of a name ending with ", inc." starts six characters
      from the end: the later positions hold " inc." and cannot start one. */
  lemma RFindIncDotAtEnd(low: string)
    requires EndsWith(low, IncDot)
    ensures RFind(low, Inc) == |low| - 6
  {
    var n := |low|;
    assert low[n - 6..n - 1] == low[n - 6..][..5];
    assert OccursAt(Inc, low, n - 6);
    assert low[n - 5] == ' ';
    assert !OccursAt(Inc, low, n - 5) by {
      assert low[n - 5..n][0] == ' ';
    }
  }

  /** Where `rfind(", inc")` lands on a name that passed the suffix test. */
  lemma RFindIncCut(low: string)
    requires EndsWith(low, Inc) || EndsWith(low, IncDot)
    ensures EndsWith(low, Inc) ==> RFind(low, Inc) == |low| - 5
    ensures EndsWith(low, IncDot) ==> RFind(low, Inc) == |low| - 6
    ensures 0 <= RFind(low, Inc) <= |low|
    ensures !(EndsWith(low, Inc) && EndsWith(low, IncDot))
  {
    if EndsWith(low, Inc) {
      RFindIncAtEnd(low);
      assert low[|low| - 1] == low[|low| - 5..][4] == 'c';
    }
    if EndsWith(low, IncDot) {
      RFindIncDotAtEnd(low);
      assert low[|low| - 1] == low[|low| - 6..][5] == '.';
    }
  }

  /** The cut of `clean_applicant_name`: `n[:n.lower().rfind(", inc")].strip()`. */
  function CutInc(n: string): (r: string)
    requires IsStripped(n) && HasIncSuffix(n)
    ensures IsStripped(r)
  {
    Strip(SliceTo(n, RFind(Lower(n), Inc)))
  }

  /** The cut removes exactly the matched suffix and leaves a prefix. */
  lemma CutIncSpec(n: string)
    requires IsStripped(n) && HasIncSuffix(n)
    ensures |CutInc(n)| <= |n| && CutInc(n) == n[..|CutInc(n)|]
    ensures EndsWith(Lower(n), Inc) ==> CutInc(n) == Strip(n[..|n| - 5])
    ensures EndsWith(Lower(n), IncDot) ==> CutInc(n) == Strip(n[..|n| - 6])
  {
    var k := RFind(Lower(n), Inc);
    RFindIncCut(Lower(n));
    StripPrefixOfStripped(n, k);
  }

  /** `clean_applicant_name`: strips the name and, when its lower-cased form
      ends with ", inc" or ", inc.", cuts at the last ", inc" and strips again.
      The result carries no surrounding whitespace. */
  function CleanApplicantName(name: string): (r: string)
    ensures IsStripped(r)
  {
    var n := Strip(name);
    if HasIncSuffix(n) then CutInc(n) else n
  }

  /** The cut always removes exactly the matched suffix, and the result is a
      stripped prefix of the stripped input. */
  lemma {:induction false} CleanApplicantNameSpec(name: string)
    ensures |CleanApplicantName(name)| <= |Strip(name)|
    ensures CleanApplicantName(name) == Strip(name)[..|CleanApplicantName(name)|]
    ensures !HasIncSuffix(Strip(name)) ==> CleanApplicantName(name) == Strip(name)
    ensures EndsWith(Lower(Strip(name)), Inc) ==> CleanApplicantName(name) == Strip(Strip(name)[..|Strip(name)| - 5])
    ensures EndsWith(Lower(Strip(name)), IncDot) ==> CleanApplicantName(name) == Strip(Strip(name)[..|Strip(name)| - 6])
  {
    CleanOfStripped(Strip(name), CleanApplicantName(name));
  }

  /** The facts of `CleanApplicantNameSpec`, stated of the stripped name `n`
      and the cleaned result `c`. */
  lemma CleanOfStripped(n: string, c: string)
    requires IsStripped(n)
    requires c == if HasIncSuffix(n) then CutInc(n) else n
    ensures |c| <= |n| && c == n[..|c|]
    ensures !HasIncSuffix(n) ==> c == n
    ensures EndsWith(Lower(n), Inc) ==> c == Strip(n[..|n| - 5])
    ensures EndsWith(Lower(n), IncDot) ==> c == Strip(n[..|n| - 6])
  {
    if HasIncSuffix(n) {
      CleanCut(n, c);
    } else {
      CleanKeep(n, c);
      assert !EndsWith(Lower(n), Inc) && !EndsWith(Lower(n), IncDot);
    }
  }

  /** The branch of `CleanOfStripped` where the name carries the suffix. */
  lemma CleanCut(n: string, c: string)
    requires IsStripped(n) && HasIncSuffix(n) && c == CutInc(n)
    ensures |c| <= |n| && c == n[..|c|]
    ensures EndsWith(Lower(n), Inc) ==> c == Strip(n[..|n| - 5])
    ensures EndsWith(Lower(n), IncDot) ==> c == Strip(n[..|n| - 6])
  {
    CutIncSpec(n);
  }

  /** The branch of `CleanOfStripped` where the name is kept as it is. */
  lemma CleanKeep(n: string, c: string)
    requires !HasIncSuffix(n) && c == n
    ensures |c| <= |n| && c == n[..|c|]
  {
    assert n == n[..|n|];
  }

  /** Cleaning a clean name that no longer ends in ", inc" changes nothing. */
  lemma {:induction false} CleanFixpoint(name: string)
    requires !HasIncSuffix(CleanApplicantName(name))
    ensures CleanApplicantName(CleanApplicantName(name)) == CleanApplicantName(name)
  {
    StripStripped(CleanApplicantName(name));
  }

  /** One call removes one trailing ", Inc" from a stripped non-empty name. */
  lemma CleanDropsOneInc(x: string)
    requires |x| > 0 && IsStripped(x)
    ensures CleanApplicantName(x + ", Inc") == x
  {
    var n := x + ", Inc";
    assert n[0] == x[0] && n[|n| - 1] == 'c';
    StripStripped(n);
    LowerAt(n);
    assert Lower(n)[|n| - 5..] == Inc by {
      forall k | 0 <= k < 5
        ensures Lower(n)[|n| - 5 + k] == Inc[k]
      {
        assert n[|n| - 5 + k] == ", Inc"[k];
      }
    }
    CleanApplicantNameSpec(n);
    assert n[..|n| - 5] == x;
    StripStripped(x);
  }

  /** `clean_applicant_name` is not idempotent: each call removes one suffix
      only, so a doubled ", Inc" needs two calls. */
  lemma {:induction false} CleanNotIdempotent(x: string)
    requires |x| > 0 && IsStripped(x)
    ensures CleanApplicantName(x + ", Inc, Inc") == x + ", Inc"
    ensures CleanApplicantName(CleanApplicantName(x + ", Inc, Inc")) == x
    ensures CleanApplicantName(CleanApplicantName(x + ", Inc, Inc")) != CleanApplicantName(x + ", Inc, Inc")
  {
    assert x + ", Inc, Inc" == (x + ", Inc") + ", Inc";
    assert (x + ", Inc")[0] == x[0];
    CleanDropsOneInc(x + ", Inc");
    CleanDropsOneInc(x);
  }

  // ---------------------------------------------------------------------------
  // has_similar_value
  // ---------------------------------------------------------------------------

  /** The normalisation `has_similar_value` applies: lower-case, then strip. */
  function Norm(s: string): string {
    Strip(Lower(s))
  }

  /** The five characters of `a` starting at `i` occur somewhere in `v`. */
  ghost predicate WindowIn(a: string, i: int, v: string) {
    0 <= i && i + 5 <= |a| && IsSubstring(a[i..i + 5], v)
  }

  /** Some five-character window of the normalised applicant occurs in the
      normalised inventor. */
  ghost predicate SimilarTo(applicant: string, inventor: string) {
    exists i :: WindowIn(Norm(applicant), i, Norm(inventor))
  }

  /** `any(a[i:i+5] in v for i in ...)`, over the windows starting at `from` or later. */
  function AnyWindowIn(a: string, v: string, from: nat): (r: bool)
    ensures r <==> exists i :: from <= i && WindowIn(a, i, v)
    decreases |a| - from
  {
    if from + 5 > |a| then false
    else if Contains(v, a[from..from + 5]) then
      assert WindowIn(a, from, v);
      true
    else AnyWindowIn(a, v, from + 1)
  }

  /** `has_similar_value`: never true for an applicant shorter than five
      characters once normalised, nor for an empty inventor list (the full
      characterisation is `HasSimilarValueSpec`). */
  function HasSimilarValue(applicant: string, inventors: seq<string>): (r: bool)
    ensures |Norm(applicant)| < 5 ==> !r
    ensures |inventors| == 0 ==> !r
  {
    if |inventors| == 0 then false
    else AnyWindowIn(Norm(applicant), Norm(inventors[0]), 0) || HasSimilarValue(applicant, inventors[1..])
  }

  /** `has_similar_value` is true exactly when some inventor shares a
      five-character window with the applicant, after both are lower-cased and
      stripped. */
  lemma {:induction false} HasSimilarValueSpec(applicant: string, inventors: seq<string>)
    ensures HasSimilarValue(applicant, inventors)
            <==> exists j :: 0 <= j < |inventors| && SimilarTo(applicant, inventors[j])
    decreases |inventors|
  {
    if |inventors| > 0 {
      HasSimilarValueSpec(applicant, inventors[1..]);
      assert forall j :: 1 <= j < |inventors| ==> inventors[j] == inventors[1..][j - 1];
      if AnyWindowIn(Norm(applicant), Norm(inventors[0]), 0) {
        assert SimilarTo(applicant, inventors[0]);
      }
    }
  }

  /** More inventors can only make an applicant similar, never undo it. */
  lemma SimilarMonotone(applicant: string, inventors: seq<string>, more: seq<string>)
    requires HasSimilarValue(applicant, inventors)
    ensures HasSimilarValue(applicant, inventors + more)
  {
    HasSimilarValueSpec(applicant, inventors);
    HasSimilarValueSpec(applicant, inventors + more);
    var j :| 0 <= j < |inventors| && SimilarTo(applicant, inventors[j]);
    assert (inventors + more)[j] == inventors[j];
  }

  /** Whether an applicant is similar depends only on which inventors are
      listed, not on their order or repetition. */
  lemma SimilarUsesOnlyElements(applicant: string, xs: seq<string>, ys: seq<string>)
    requires Elems(xs) == Elems(ys)
    ensures HasSimilarValue(applicant, xs) == HasSimilarValue(applicant, ys)
  {
    HasSimilarValueSpec(applicant, xs);
    HasSimilarValueSpec(applicant, ys);
    if HasSimilarValue(applicant, xs) {
      var j :| 0 <= j < |xs| && SimilarTo(applicant, xs[j]);
      assert xs[j] in Elems(ys);
      var k :| 0 <= k < |ys| && ys[k] == xs[j];
    }
    if HasSimilarValue(applicant, ys) {
      var j :| 0 <= j < |ys| && SimilarTo(applicant, ys[j]);
      assert ys[j] in Elems(xs);
      var k :| 0 <= k < |xs| && xs[k] == ys[j];
    }
  }

  lemma SameNameSameNorm(applicant: string, inventor: string)
    requires Lower(Strip(applicant)) == Lower(Strip(inventor))
    ensures Norm(applicant) == Norm(inventor)
    ensures |Norm(applicant)| == |Strip(applicant)|
  {
    LowerStripCommute(applicant);
    LowerStripCommute(inventor);
  }

  lemma WindowInSelf(a: string)
    requires |a| >= 5
    ensures WindowIn(a, 0, a)
  {
    assert OccursAt(a[0..5], a, 0);
  }

  /** An applicant that equals an inventor after strip and lower-case, and is
      at least five characters long, is also similar to that inventor. */
  lemma ExactMatchIsSimilar(applicant: string, inventor: string)
    requires Lower(Strip(applicant)) == Lower(Strip(inventor))
    requires |Strip(applicant)| >= 5
    ensures SimilarTo(applicant, inventor)
  {
    SameNameSameNorm(applicant, inventor);
    WindowInSelf(Norm(applicant));
  }
}

=== FILE: network.dfy ===
/**
 * Steps 3 and 4 of PatentscopeApp_Inv.py: an undirected weighted graph over
 * the group keys, built the way networkx's `Graph.add_edge` builds it, and the
 * twenty best-connected applicants with the subgraph they induce.
 */
module Network {
  import opened Options
  import opened Text
  import opened Ranking
  import opened Reducer
  import opened Aggregator

  /** A networkx `Graph`: its nodes in insertion order and its adjacency
      (`adj[a][b]` is the `weight` of the edge a–b). */
  datatype Graph = Graph(nodes: seq<string>, adj: map<string, map<string, nat>>)

  const Empty: Graph := Graph([], map[])

  predicate HasEdge(G: Graph, a: string, b: string) {
    a in G.adj && b in G.adj[a]
  }

  function Weight(G: Graph, a: string, b: string): nat
    requires HasEdge(G, a, b)
  {
    G.adj[a][b]
  }

  /** networkx's `G.degree[n]` for a graph without self-loops: the number of
      neighbours. */
  function Degree(G: Graph, n: string): nat {
    if n in G.adj then |G.adj[n]| else 0
  }

  /** The node list and the adjacency keys describe the same nodes, once each. */
  predicate NodesAgree(G: Graph) {
    Elems(G.nodes) == G.adj.Keys && Distinct(G.nodes)
  }

  /** Adds `n` with no neighbours unless it is already a node. */
  function AddNode(G: Graph, n: string): (r: Graph)
    requires NodesAgree(G)
    ensures NodesAgree(r)
    ensures r.adj.Keys == G.adj.Keys + {n}
  {
    if n in G.adj then G
    else
      var r := Graph(G.nodes + [n], G.adj[n := map[]]);
      ElemsAppend(G.nodes, [n]);
      assert Elems([n]) == {n};
      r
  }

  /** `G.add_edge(u, v, weight=w)`: missing endpoints are appended to the node
      list (u first), then the edge is recorded in both directions. */
  function AddEdge(G: Graph, u: string, v: string, w: nat): (r: Graph)
    requires NodesAgree(G)
    ensures NodesAgree(r)
  {
    var G2 := AddNode(AddNode(G, u), v);
    var au: map<string, nat> := G2.adj[u][v := w];
    var a3 := G2.adj[u := au];
    var av: map<string, nat> := a3[v][u := w];
    Graph(G2.nodes, a3[v := av])
  }

  /** Adding u–v touches only the entries a–b with {a, b} = {u, v}, which
      then hold `w`; every other entry keeps its presence and weight. */
  lemma {:induction false} AddEdgeAt(G: Graph, u: string, v: string, w: nat, a: string, b: string)
    requires NodesAgree(G)
    ensures HasEdge(AddEdge(G, u, v, w), a, b) <==> HasEdge(G, a, b) || (a == u && b == v) || (a == v && b == u)
    ensures HasEdge(AddEdge(G, u, v, w), a, b) ==>
              Weight(AddEdge(G, u, v, w), a, b)
              == if (a == u && b == v) || (a == v && b == u) then w else Weight(G, a, b)
  {
    var G2 := AddNode(AddNode(G, u), v);
    AddNodesKeep(G, u, v, a, b);
    var r := AddEdge(G, u, v, w);
    var au: map<string, nat> := G2.adj[u][v := w];
    var a3 := G2.adj[u := au];
    var av: map<string, nat> := a3[v][u := w];
    assert r.adj == a3[v := av];
    if a == v {
      assert r.adj[a] == av;
    } else if a == u {
      assert r.adj[a] == au;
    } else {
      assert (a in r.adj <==> a in G2.adj) && (a in r.adj ==> r.adj[a] == G2.adj[a]);
    }
  }

  /** Adding nodes adds no edges. */
  lemma AddNodesKeep(G: Graph, u: string, v: string, a: string, b: string)
    requires NodesAgree(G)
    ensures var G2 := AddNode(AddNode(G, u), v);
      && u in G2.adj && v in G2.adj
      && (HasEdge(G2, a, b) <==> HasEdge(G, a, b))
      && (HasEdge(G2, a, b) ==> Weight(G2, a, b) == Weight(G, a, b))
  {
  }

  /** Adding u–v makes u and v nodes and no other. */
  lemma {:induction false} AddEdgeNodes(G: Graph, u: string, v: string, w: nat)
    requires NodesAgree(G)
    ensures AddEdge(G, u, v, w).adj.Keys == G.adj.Keys + {u, v}
  {
  }

  // ---------------------------------------------------------------------------
  // The pairwise scan
  // ---------------------------------------------------------------------------

  /** The number of inventors the groups at `p` and `q` share. */
  function Shared(gs: seq<Group>, p: nat, q: nat): nat
    requires p < |gs| && q < |gs|
  {
    |gs[p].inventors * gs[q].inventors|
  }

  /** One step of the inner loop: the pair (i, j) gets an edge when i < j
      and the two groups share inventors. */
  function Visit(gs: seq<Group>, i: nat, j: nat, G: Graph): (r: Graph)
    requires i < |gs| && j < |gs|
    requires NodesAgree(G)
    ensures NodesAgree(r)
  {
    if i >= j then G
    else
      var w := Shared(gs, i, j);
      if w > 0 then AddEdge(G, gs[i].key, gs[j].key, w) else G
  }

  /** The inner loop over `compacted_data` for row `i`, from column `j` on. */
  function ScanRow(gs: seq<Group>, i: nat, j: nat, G: Graph): (r: Graph)
    requires i < |gs| && j <= |gs|
    requires NodesAgree(G)
    ensures NodesAgree(r)
    decreases |gs| - j
  {
    if j == |gs| then G else ScanRow(gs, i, j + 1, Visit(gs, i, j, G))
  }

  /** The outer loop, from row `i` on. */
  function ScanRows(gs: seq<Group>, i: nat, G: Graph): (r: Graph)
    requires i <= |gs|
    requires NodesAgree(G)
    ensures NodesAgree(r)
    decreases |gs| - i
  {
    if i == |gs| then G else ScanRows(gs, i + 1, ScanRow(gs, i, 0, G))
  }

  /** Step 3: the graph of the groups. */
  function BuildGraph(gs: seq<Group>): (r: Graph)
    ensures NodesAgree(r)
  {
    ScanRows(gs, 0, Empty)
  }

  /** The pair p < q has been visited before position (i, j) of the scan. */
  predicate Visited(p: nat, q: nat, i: nat, j: nat) {
    p < q && (p < i || (p == i && q < j))
  }

  /** The keys of the groups. */
  function KeySet(gs: seq<Group>): set<string> {
    set p | 0 <= p < |gs| :: gs[p].key
  }

  /** The pairs visited before (i, j) that share inventors are exactly the
      edges between group keys, weighted by the number shared. */
  ghost predicate EdgesAt(gs: seq<Group>, i: nat, j: nat, G: Graph) {
    forall p, q :: 0 <= p < q < |gs| ==>
      && (HasEdge(G, gs[p].key, gs[q].key) <==> Visited(p, q, i, j) && Shared(gs, p, q) > 0)
      && (HasEdge(G, gs[p].key, gs[q].key) ==> Weight(G, gs[p].key, gs[q].key) == Shared(gs, p, q))
  }

  /** Every edge is present both ways with the same weight. */
  ghost predicate Symmetric(G: Graph) {
    forall a, b :: HasEdge(G, a, b) ==> HasEdge(G, b, a) && Weight(G, b, a) == Weight(G, a, b)
  }

  /** Every edge joins two different group keys. */
  ghost predicate BetweenKeys(gs: seq<Group>, G: Graph) {
    forall a, b :: HasEdge(G, a, b) ==> a in KeySet(gs) && b in KeySet(gs) && a != b
  }

  /** Every node has a neighbour (nodes enter the graph only with an edge). */
  ghost predicate NoIsolated(G: Graph) {
    forall a :: a in G.adj ==> |G.adj[a]| > 0
  }

  /** The keys of sorted groups are pairwise different. */
  lemma SortedDistinctKeys(gs: seq<Group>)
    requires SortedKeys(gs)
    ensures forall p, q :: 0 <= p < |gs| && 0 <= q < |gs| && p != q ==> gs[p].key != gs[q].key
  {
    forall p, q | 0 <= p < |gs| && 0 <= q < |gs| && p != q
      ensures gs[p].key != gs[q].key
    {
      if p < q {
        Order.LexIrreflexive(gs[p].key);
      } else {
        Order.LexIrreflexive(gs[q].key);
      }
    }
  }

  lemma AddEdgeSymmetric(G: Graph, u: string, v: string, w: nat)
    requires NodesAgree(G) && Symmetric(G)
    ensures Symmetric(AddEdge(G, u, v, w))
  {
    var r := AddEdge(G, u, v, w);
    forall a, b | HasEdge(r, a, b)
      ensures HasEdge(r, b, a) && Weight(r, b, a) == Weight(r, a, b)
    {
      AddEdgeAt(G, u, v, w, a, b);
      AddEdgeAt(G, u, v, w, b, a);
    }
  }

  lemma AddEdgeBetweenKeys(gs: seq<Group>, G: Graph, u: string, v: string, w: nat)
    requires NodesAgree(G) && BetweenKeys(gs, G)
    requires u in KeySet(gs) && v in KeySet(gs) && u != v
    ensures BetweenKeys(gs, AddEdge(G, u, v, w))
  {
    var r := AddEdge(G, u, v, w);
    forall a, b | HasEdge(r, a, b)
      ensures a in KeySet(gs) && b in KeySet(gs) && a != b
    {
      AddEdgeAt(G, u, v, w, a, b);
    }
  }

  lemma AddEdgeNoIsolated(G: Graph, u: string, v: string, w: nat)
    requires NodesAgree(G) && NoIsolated(G)
    ensures NoIsolated(AddEdge(G, u, v, w))
  {
    var r := AddEdge(G, u, v, w);
    AddEdgeNodes(G, u, v, w);
    forall a | a in r.adj
      ensures |r.adj[a]| > 0
    {
      if a == u {
        AddEdgeAt(G, u, v, w, u, v);
        assert v in r.adj[a];
      } else if a == v {
        AddEdgeAt(G, u, v, w, v, u);
        assert u in r.adj[a];
      } else {
        var b :| b in G.adj[a];
        AddEdgeAt(G, u, v, w, a, b);
        assert b in r.adj[a];
      }
    }
  }

  /** Visiting the pair (i, j), which shares inventors, adds exactly its edge. */
  lemma AddEdgeEdgesAt(gs: seq<Group>, i: nat, j: nat, G: Graph)
    requires SortedKeys(gs) && i < j < |gs| && Shared(gs, i, j) > 0
    requires NodesAgree(G) && EdgesAt(gs, i, j, G)
    ensures EdgesAt(gs, i, j + 1, AddEdge(G, gs[i].key, gs[j].key, Shared(gs, i, j)))
  {
    var u, v, w := gs[i].key, gs[j].key, Shared(gs, i, j);
    var r := AddEdge(G, u, v, w);
    forall a, b
      ensures HasEdge(r, a, b) <==> HasEdge(G, a, b) || (a == u && b == v) || (a == v && b == u)
      ensures HasEdge(r, a, b) ==> Weight(r, a, b) == if (a == u && b == v) || (a == v && b == u) then w else Weight(G, a, b)
    {
      AddEdgeAt(G, u, v, w, a, b);
    }
    OneMoreEdge(gs, i, j, G, r);
  }

  /** A graph that differs from `G` exactly by the edge of the pair (i, j)
      describes the scan one step further. */
  lemma OneMoreEdge(gs: seq<Group>, i: nat, j: nat, G: Graph, r: Graph)
    requires SortedKeys(gs) && i < j < |gs| && Shared(gs, i, j) > 0
    requires EdgesAt(gs, i, j, G)
    requires var u, v := gs[i].key, gs[j].key;
      forall a, b :: (HasEdge(r, a, b) <==> HasEdge(G, a, b) || (a == u && b == v) || (a == v && b == u))
        && (HasEdge(r, a, b) ==> Weight(r, a, b) == if (a == u && b == v) || (a == v && b == u) then Shared(gs, i, j) else Weight(G, a, b))
    ensures EdgesAt(gs, i, j + 1, r)
  {
    SortedDistinctKeys(gs);
    var u, v := gs[i].key, gs[j].key;
    forall p, q | 0 <= p < q < |gs|
      ensures HasEdge(r, gs[p].key, gs[q].key) <==> Visited(p, q, i, j + 1) && Shared(gs, p, q) > 0
      ensures HasEdge(r, gs[p].key, gs[q].key) ==> Weight(r, gs[p].key, gs[q].key) == Shared(gs, p, q)
    {
      assert (gs[p].key == u && gs[q].key == v) <==> (p == i && q == j);
      assert !(gs[p].key == v && gs[q].key == u);
    }
  }

  /** Two scan positions that have visited the same pairs describe the same edges. */
  lemma EdgesAtMove(gs: seq<Group>, i: nat, j: nat, i2: nat, j2: nat, G: Graph)
    requires forall p, q :: 0 <= p < q < |gs| ==>
               (Visited(p, q, i, j) && Shared(gs, p, q) > 0 <==> Visited(p, q, i2, j2) && Shared(gs, p, q) > 0)
    requires EdgesAt(gs, i, j, G)
    ensures EdgesAt(gs, i2, j2, G)
  {
  }

  /** The facts about the graph that every step keeps. */
  ghost predicate Shape(gs: seq<Group>, G: Graph) {
    NodesAgree(G) && Symmetric(G) && BetweenKeys(gs, G) && NoIsolated(G)
  }

  lemma {:induction false} VisitShape(gs: seq<Group>, i: nat, j: nat, G: Graph)
    requires SortedKeys(gs) && i < |gs| && j < |gs|
    requires Shape(gs, G)
    ensures Shape(gs, Visit(gs, i, j, G))
  {
    var w := Shared(gs, i, j);
    if i < j && w > 0 {
      var u, v := gs[i].key, gs[j].key;
      SortedDistinctKeys(gs);
      assert u in KeySet(gs) && v in KeySet(gs) && u != v;
      AddEdgeSymmetric(G, u, v, w);
      AddEdgeBetweenKeys(gs, G, u, v, w);
      AddEdgeNoIsolated(G, u, v, w);
    }
  }

  lemma VisitEdges(gs: seq<Group>, i: nat, j: nat, G: Graph)
    requires SortedKeys(gs) && i < |gs| && j < |gs|
    requires NodesAgree(G) && EdgesAt(gs, i, j, G)
    ensures EdgesAt(gs, i, j + 1, Visit(gs, i, j, G))
  {
    if i < j && Shared(gs, i, j) > 0 {
      AddEdgeEdgesAt(gs, i, j, G);
    } else {
      EdgesAtMove(gs, i, j, i, j + 1, G);
    }
  }

  /** The inner loop of row `i` keeps the shape and visits the rest of the row. */
  lemma {:induction false} ScanRowSpec(gs: seq<Group>, i: nat, j: nat, G: Graph)
    requires SortedKeys(gs) && i < |gs| && j <= |gs|
    requires Shape(gs, G) && EdgesAt(gs, i, j, G)
    ensures Shape(gs, ScanRow(gs, i, j, G)) && EdgesAt(gs, i + 1, 0, ScanRow(gs, i, j, G))
    decreases |gs| - j
  {
    if j == |gs| {
      EdgesAtMove(gs, i, j, i + 1, 0, G);
    } else {
      var next := Visit(gs, i, j, G);
      VisitShape(gs, i, j, G);
      VisitEdges(gs, i, j, G);
      ScanRowSpec(gs, i, j + 1, next);
    }
  }

  /** The outer loop from row `i` keeps the shape and visits every remaining pair. */
  lemma {:induction false} ScanRowsSpec(gs: seq<Group>, i: nat, G: Graph)
    requires SortedKeys(gs) && i <= |gs|
    requires Shape(gs, G) && EdgesAt(gs, i, 0, G)
    ensures Shape(gs, ScanRows(gs, i, G)) && EdgesAt(gs, |gs|, 0, ScanRows(gs, i, G))
    decreases |gs| - i
  {
    if i < |gs| {
      ScanRowSpec(gs, i, 0, G);
      ScanRowsSpec(gs, i + 1, ScanRow(gs, i, 0, G));
    }
  }

  /** Two groups are joined exactly when they share an inventor, with the
      number they share as weight; the graph is symmetric, has no self-loops,
      and holds no node without an edge. */
  lemma BuildGraphSpec(gs: seq<Group>)
    requires SortedKeys(gs)
    ensures var G := BuildGraph(gs);
      && (forall p, q :: 0 <= p < |gs| && 0 <= q < |gs| && p != q ==>
            (HasEdge(G, gs[p].key, gs[q].key) <==> Shared(gs, p, q) > 0))
      && (forall p, q :: 0 <= p < |gs| && 0 <= q < |gs| && p != q && HasEdge(G, gs[p].key, gs[q].key) ==>
            Weight(G, gs[p].key, gs[q].key) == Shared(gs, p, q))
      && (forall a, b :: HasEdge(G, a, b) ==> HasEdge(G, b, a) && a != b && a in KeySet(gs) && b in KeySet(gs))
      && (forall a :: a in G.adj ==> Degree(G, a) > 0)
  {
    ScanRowsSpec(gs, 0, Empty);
    var G := BuildGraph(gs);
    forall p, q | 0 <= p < |gs| && 0 <= q < |gs| && q < p
      ensures HasEdge(G, gs[p].key, gs[q].key) <==> Shared(gs, p, q) > 0
      ensures HasEdge(G, gs[p].key, gs[q].key) ==> Weight(G, gs[p].key, gs[q].key) == Shared(gs, p, q)
    {
      assert Shared(gs, p, q) == Shared(gs, q, p) by {
        assert gs[p].inventors * gs[q].inventors == gs[q].inventors * gs[p].inventors;
      }
    }
  }

  /** A record whose 'Inventors' cell was missing carries the single token ""
      (as does a cell with an empty piece, such as "A;"), so any two groups
      holding "" share that token and are joined by an edge. Its weight is
      the number of all the tokens they share, so at least 1. */
  lemma MissingInventorsLinked(gs: seq<Group>, p: nat, q: nat)
    requires SortedKeys(gs)
    requires p < |gs| && q < |gs| && p != q
    requires "" in gs[p].inventors && "" in gs[q].inventors
    ensures HasEdge(BuildGraph(gs), gs[p].key, gs[q].key)
    ensures HasEdge(BuildGraph(gs), gs[q].key, gs[p].key)
    ensures Weight(BuildGraph(gs), gs[p].key, gs[q].key) == Shared(gs, p, q) >= 1
  {
    BuildGraphSpec(gs);
    assert "" in gs[p].inventors * gs[q].inventors;
    assert Shared(gs, p, q) > 0;
  }

  /** The neighbours of a group are the groups it shares an inventor with,
      so its degree is their number. */
  lemma NeighboursOfGroup(gs: seq<Group>, p: nat)
    requires SortedKeys(gs) && p < |gs|
    ensures var G := BuildGraph(gs);
      gs[p].key in G.adj ==>
        G.adj[gs[p].key].Keys == set q | 0 <= q < |gs| && q != p && Shared(gs, p, q) > 0 :: gs[q].key
  {
    BuildGraphSpec(gs);
    var G := BuildGraph(gs);
    if gs[p].key in G.adj {
      var want := set q | 0 <= q < |gs| && q != p && Shared(gs, p, q) > 0 :: gs[q].key;
      forall b | b in G.adj[gs[p].key]
        ensures b in want
      {
        assert HasEdge(G, gs[p].key, b);
        var q :| 0 <= q < |gs| && gs[q].key == b;
        assert q != p;
      }
    }
  }

  // ---------------------------------------------------------------------------
  // Step 4: the best-connected applicants
  // ---------------------------------------------------------------------------

  /** The number of applicants kept. */
  const TopCount: nat := 20

  /** `G.degree` as a key function. */
  function DegreeOf(G: Graph): string -> int {
    n => Degree(G, n)
  }

  /** `sorted(G.degree, key=lambda x: x[1], reverse=True)[:20]`, keeping the
      node names: the twenty nodes of highest degree, ties in node order. */
  function TopConnected(G: Graph): (r: seq<string>)
    requires NodesAgree(G)
    ensures |r| == Min(TopCount, |G.nodes|)
  {
    TopByKey(G.nodes, DegreeOf(G), TopCount)
  }

  /** The selection holds distinct nodes; none left out has a higher degree
      than one selected; and among equal degrees the earlier nodes are taken,
      in node order. */
  lemma TopConnectedSpec(G: Graph)
    requires NodesAgree(G)
    ensures var r := TopConnected(G);
      && Distinct(r)
      && (forall i :: 0 <= i < |r| ==> r[i] in G.adj)
      && (forall x, y :: x in r && y in G.nodes && y !in r ==> Degree(G, x) >= Degree(G, y))
      && (forall d :: WithKey(r, DegreeOf(G), d) <= WithKey(G.nodes, DegreeOf(G), d))
  {
    var key := DegreeOf(G);
    var r := TopConnected(G);
    TopByKeyDistinct(G.nodes, key, TopCount);
    forall i | 0 <= i < |r|
      ensures r[i] in G.adj
    {
      assert r[i] in multiset(G.nodes);
    }
    forall x, y | x in r && y in G.nodes && y !in r
      ensures Degree(G, x) >= Degree(G, y)
    {
      assert y in multiset(G.nodes) - multiset(r);
      assert key(x) >= key(y);
    }
  }

  /** `G.subgraph(nodes)`: the nodes of `sel` that are in `G`, with every edge
      of `G` between two of them. */
  function Induced(G: Graph, sel: seq<string>): (H: Graph)
    ensures forall a, b :: HasEdge(H, a, b) <==> HasEdge(G, a, b) && a in sel && b in sel
    ensures forall a, b :: HasEdge(H, a, b) ==> Weight(H, a, b) == Weight(G, a, b)
    ensures H.adj.Keys == G.adj.Keys * Elems(sel)
  {
    var adj := map a | a in G.adj && a in sel :: map b | b in G.adj[a] && b in sel :: G.adj[a][b];
    Graph(Filter(G.nodes, sel), adj)
  }

  /** The elements of `s` that are in `sel`, in order. */
  function Filter(s: seq<string>, sel: seq<string>): (r: seq<string>)
    ensures forall x :: x in r <==> x in s && x in sel
  {
    if |s| == 0 then []
    else (if s[0] in sel then [s[0]] else []) + Filter(s[1..], sel)
  }

  // ---------------------------------------------------------------------------
  // The whole pipeline
  // ---------------------------------------------------------------------------

  /** What the script draws: the full graph, the selected names and `H`. */
  datatype Network = Network(graph: Graph, top: seq<string>, drawn: Graph)

  /** Steps 1 to 4 on the spreadsheet rows. No record at all makes the
      `DataFrame` lack an `Applicant` column, and the script stops with a
      `KeyError`: that outcome is `None`. */
  function ApplicantNetwork(rows: seq<RawRow>): (r: Option<Network>)
    ensures r.None? <==> |ReduceRows(rows)| == 0
    ensures r.Some? ==> |r.value.top| == Min(TopCount, |r.value.graph.nodes|)
    ensures r.Some? ==> forall a, b :: HasEdge(r.value.drawn, a, b) <==>
              HasEdge(r.value.graph, a, b) && a in r.value.top && b in r.value.top
  {
    var emitted := ReduceRows(rows);
    if |emitted| == 0 then None
    else
      var G := BuildGraph(GroupBy(emitted));
      var top := TopConnected(G);
      Some(Network(G, top, Induced(G, top)))
  }
}

=== FILE: options.dfy ===
/** The optional value used wherever the scripts produce `None` or pandas produces a missing cell. */
module Options {

  datatype Option<+T> = None | Some(value: T) {

    /** The wrapped value, or `default` for a missing one (pandas `fillna`). */
    function GetOr(default: T): T {
      match this
      case Some(v) => v
      case None => default
    }
  }

  /** The present values of `xs`, in order. */
  function Somes<T>(xs: seq<Option<T>>): (r: seq<T>)
    ensures |r| <= |xs|
  {
    if |xs| == 0 then []
    else if xs[0].Some? then [xs[0].value] + Somes(xs[1..])
    else Somes(xs[1..])
  }

  /** Every value of `Somes(xs)` is present in `xs`. */
  lemma {:induction false} SomesSound<T>(xs: seq<Option<T>>)
    ensures forall i :: 0 <= i < |Somes(xs)| ==> exists j :: 0 <= j < |xs| && xs[j] == Some(Somes(xs)[i])
    decreases |xs|
  {
    if |xs| == 0 {
      assert |Somes(xs)| == 0;
    } else {
      var rest := Somes(xs[1..]);
      SomesSound(xs[1..]);
      forall i | 0 <= i < |Somes(xs)|
        ensures exists j :: 0 <= j < |xs| && xs[j] == Some(Somes(xs)[i])
      {
        if xs[0].Some? && i == 0 {
          assert xs[0] == Some(Somes(xs)[i]);
        } else {
          var k := if xs[0].Some? then i - 1 else i;
          assert Somes(xs)[i] == rest[k];
          var j :| 0 <= j < |xs[1..]| && xs[1..][j] == Some(rest[k]);
          assert xs[j + 1] == Some(Somes(xs)[i]);
        }
      }
    }
  }

  /** Every present value of `xs` is kept by `Somes`. */
  lemma {:induction false} SomesComplete<T>(xs: seq<Option<T>>)
    ensures forall j :: 0 <= j < |xs| && xs[j].Some? ==> xs[j].value in Somes(xs)
    decreases |xs|
  {
    if |xs| > 0 {
      SomesComplete(xs[1..]);
      forall j | 0 <= j < |xs| && xs[j].Some?
        ensures xs[j].value in Somes(xs)
      {
        if j > 0 {
          assert xs[1..][j - 1] == xs[j];
        }
      }
    }
  }
}

=== FILE: order.dfy ===
/** Python's `<` on `str`: lexicographic by code point, a proper prefix sorting first.
    pandas `groupby` returns its groups in this order. */
module Order {

  predicate LexLess(a: string, b: string)
    decreases |a|
  {
    if |a| == 0 then |b| > 0
    else if |b| == 0 then false
    else if a[0] != b[0] then a[0] < b[0]
    else LexLess(a[1..], b[1..])
  }

  lemma {:induction false} LexIrreflexive(a: string)
    ensures !LexLess(a, a)
    decreases |a|
  {
    if |a| > 0 {
      LexIrreflexive(a[1..]);
    }
  }

  lemma {:induction false} LexTransitive(a: string, b: string, c: string)
    requires LexLess(a, b) && LexLess(b, c)
    ensures LexLess(a, c)
    decreases |a|
  {
    if |a| > 0 && |b| > 0 && |c| > 0 && a[0] == b[0] && b[0] == c[0] {
      LexTransitive(a[1..], b[1..], c[1..]);
    }
  }

  /** Any two distinct strings are ordered one way or the other. */
  lemma {:induction false} LexTotal(a: string, b: string)
    requires a != b
    ensures LexLess(a, b) || LexLess(b, a)
    decreases |a|
  {
    if |a| > 0 && |b| > 0 && a[0] == b[0] {
      assert a == [a[0]] + a[1..] && b == [b[0]] + b[1..];
      LexTotal(a[1..], b[1..]);
    }
  }

  lemma {:induction false} LexAsymmetric(a: string, b: string)
    requires LexLess(a, b)
    ensures !LexLess(b, a)
  {
    if LexLess(b, a) {
      LexTransitive(a, b, a);
      LexIrreflexive(a);
    }
  }
}

=== FILE: patterns.dfy ===
/**
 * The two regular-expression helpers of ParallelCoords_Patentscope.py, as
 * explicit left-to-right scanners over ASCII text, in the way `re.findall`
 * walks a string: try a match at the current position, on success resume
 * right after it, otherwise move on by one character.
 *
 * `\b` before a word character holds at the start of the string or after a
 * character outside [A-Za-z0-9_]; after a word character it holds at the end
 * of the string or before such a character.
 */
module Patterns {
  import opened Options
  import opened Text
  import opened Ranking

  /** The start of the string, or a non-word character just before `p`. */
  predicate BoundaryBefore(s: string, p: int)
    requires 0 <= p <= |s|
  {
    p == 0 || !IsWordChar(s[p - 1])
  }

  /** The end of the string, or a non-word character at `p`. */
  predicate BoundaryAt(s: string, p: int)
    requires 0 <= p <= |s|
  {
    p == |s| || !IsWordChar(s[p])
  }

  function DigitValue(c: char): int
    requires IsDigit(c)
  {
    c as int - '0' as int
  }

  // ---------------------------------------------------------------------------
  // extract_earliest_year: \b(19\d{2}|20\d{2})\b
  // ---------------------------------------------------------------------------

  /** The year pattern matches at `p`. */
  predicate YearAt(s: string, p: int) {
    && 0 <= p && p + 4 <= |s|
    && BoundaryBefore(s, p)
    && ((s[p] == '1' && s[p + 1] == '9') || (s[p] == '2' && s[p + 1] == '0'))
    && IsDigit(s[p + 2]) && IsDigit(s[p + 3])
    && BoundaryAt(s, p + 4)
  }

  /** `int(year)` of the four digits matched at `p`. */
  function YearValue(s: string, p: int): (y: int)
    requires YearAt(s, p)
    ensures 1900 <= y <= 2099
  {
    1000 * DigitValue(s[p]) + 100 * DigitValue(s[p + 1]) + 10 * DigitValue(s[p + 2]) + DigitValue(s[p + 3])
  }

  /** `re.findall` of the year pattern from position `p`. */
  function FindYears(s: string, p: nat): seq<int>
    decreases |s| - p
  {
    if p >= |s| then []
    else if YearAt(s, p) then [YearValue(s, p)] + FindYears(s, p + 4)
    else FindYears(s, p + 1)
  }

  /** The years matched at every position from `p` on, tried one by one. */
  function YearsFrom(s: string, p: nat): seq<int>
    decreases |s| - p
  {
    if p >= |s| then []
    else (if YearAt(s, p) then [YearValue(s, p)] else []) + YearsFrom(s, p + 1)
  }

  lemma YearIsWord(s: string, p: int)
    requires YearAt(s, p)
    ensures forall i :: p <= i < p + 4 ==> IsWordChar(s[i])
  {
  }

  /** Inside a matched year no other match can start: the character before
      each inner position is a digit. */
  lemma {:induction false} YearsSkipInside(s: string, p: nat, k: nat)
    requires YearAt(s, p) && p < k <= p + 4
    ensures YearsFrom(s, p + 1) == YearsFrom(s, k)
    decreases k - p
  {
    if k > p + 1 {
      YearsSkipInside(s, p, k - 1);
      YearIsWord(s, p);
      assert IsWordChar(s[k - 2]);
      assert YearsFrom(s, k - 1) == YearsFrom(s, k);
    }
  }

  /** Jumping over a match loses nothing: `findall` sees every match. */
  lemma {:induction false} FindYearsComplete(s: string, p: nat)
    ensures FindYears(s, p) == YearsFrom(s, p)
    decreases |s| - p
  {
    if p < |s| {
      if YearAt(s, p) {
        FindYearsComplete(s, p + 4);
        YearsSkipInside(s, p, p + 4);
        assert FindYears(s, p) == [YearValue(s, p)] + FindYears(s, p + 4);
        assert YearsFrom(s, p) == [YearValue(s, p)] + YearsFrom(s, p + 1);
      } else {
        FindYearsComplete(s, p + 1);
        assert FindYears(s, p) == FindYears(s, p + 1);
        assert YearsFrom(s, p) == [] + YearsFrom(s, p + 1);
      }
    }
  }

  /** Each listed year is the value of a match at some position at or after `p`. */
  lemma {:induction false} YearsFromSpec(s: string, p: nat)
    ensures forall y :: y in YearsFrom(s, p) <==> exists q :: p <= q && YearAt(s, q) && YearValue(s, q) == y
    decreases |s| - p
  {
    if p < |s| {
      YearsFromSpec(s, p + 1);
      assert YearsFrom(s, p) == (if YearAt(s, p) then [YearValue(s, p)] else []) + YearsFrom(s, p + 1);
      forall y | (exists q :: p <= q && YearAt(s, q) && YearValue(s, q) == y)
        ensures y in YearsFrom(s, p)
      {
        var q :| p <= q && YearAt(s, q) && YearValue(s, q) == y;
        if q == p {
          assert YearsFrom(s, p)[0] == y;
        } else {
          assert y in YearsFrom(s, p + 1);
        }
      }
    }
  }

  /** The least element of a non-empty sequence (Python's `min`). */
  function MinOf(xs: seq<int>): (m: int)
    requires |xs| > 0
    ensures m in xs
    ensures forall i :: 0 <= i < |xs| ==> m <= xs[i]
  {
    if |xs| == 1 then xs[0]
    else
      var rest := MinOf(xs[1..]);
      assert forall i :: 1 <= i < |xs| ==> xs[i] == xs[1..][i - 1];
      if xs[0] <= rest then xs[0] else rest
  }

  /** The value a cell of 'Priorities Data' is scanned as. */
  ghost predicate HasYear(s: string) {
    exists q :: YearAt(s, q)
  }

  /** `extract_earliest_year`: the smallest matched year, or `None` for a
      missing cell or a cell without any match. */
  function ExtractEarliestYear(cell: Option<string>): (r: Option<int>)
    ensures cell.None? ==> r.None?
    ensures r.Some? ==> 1900 <= r.value <= 2099
  {
    match cell
    case None => None
    case Some(s) =>
      var years := FindYears(s, 0);
      if |years| == 0 then None else
        FindYearsComplete(s, 0);
        YearsFromSpec(s, 0);
        Some(MinOf(years))
  }

  /** The earliest year is a matched year no later than any other, and there is
      none exactly when no year is matched. */
  lemma ExtractEarliestYearSpec(s: string)
    ensures ExtractEarliestYear(Some(s)).None? <==> !HasYear(s)
    ensures ExtractEarliestYear(Some(s)).Some? ==>
              var y := ExtractEarliestYear(Some(s)).value;
              (exists q :: YearAt(s, q) && YearValue(s, q) == y)
              && forall q :: YearAt(s, q) ==> y <= YearValue(s, q)
  {
    FindYearsComplete(s, 0);
    YearsFromSpec(s, 0);
    var years := FindYears(s, 0);
    if HasYear(s) {
      var q :| YearAt(s, q);
      assert YearValue(s, q) in years;
    }
    if |years| > 0 {
      forall q | YearAt(s, q)
        ensures MinOf(years) <= YearValue(s, q)
      {
        assert YearValue(s, q) in years;
      }
    }
  }

  /** A year glued to a word character on either side is not a match. */
  lemma {:induction false} GluedYearIgnored(s: string, p: nat)
    requires p + 4 <= |s|
    requires (p > 0 && IsWordChar(s[p - 1])) || (p + 4 < |s| && IsWordChar(s[p + 4]))
    ensures !YearAt(s, p)
  {
  }

  // ---------------------------------------------------------------------------
  // extract_main_ipc: \b[A-Z]\d{2}[A-Z]?
  // ---------------------------------------------------------------------------

  /** The mandatory part of the IPC pattern matches at `p`. */
  predicate IpcAt(s: string, p: int) {
    && 0 <= p && p + 3 <= |s|
    && BoundaryBefore(s, p)
    && IsUpper(s[p]) && IsDigit(s[p + 1]) && IsDigit(s[p + 2])
  }

  /** The optional trailing letter is taken whenever it is there (`?` is greedy). */
  function IpcLen(s: string, p: int): (n: nat)
    requires IpcAt(s, p)
    ensures p + n <= |s|
  {
    if p + 3 < |s| && IsUpper(s[p + 3]) then 4 else 3
  }

  /** A letter, two digits and an optional letter. */
  predicate IsIpcCode(c: string) {
    && (|c| == 3 || |c| == 4)
    && IsUpper(c[0]) && IsDigit(c[1]) && IsDigit(c[2])
    && (|c| == 4 ==> IsUpper(c[3]))
  }

  function CodeAt(s: string, p: int): (c: string)
    requires IpcAt(s, p)
    ensures IsIpcCode(c)
  {
    s[p..p + IpcLen(s, p)]
  }

  /** `re.findall` of the IPC pattern from position `p`. */
  function FindCodes(s: string, p: nat): seq<string>
    decreases |s| - p
  {
    if p >= |s| then []
    else if IpcAt(s, p) then [CodeAt(s, p)] + FindCodes(s, p + IpcLen(s, p))
    else FindCodes(s, p + 1)
  }

  /** The codes matched at every position from `p` on, tried one by one. */
  function CodesFrom(s: string, p: nat): seq<string>
    decreases |s| - p
  {
    if p >= |s| then []
    else (if IpcAt(s, p) then [CodeAt(s, p)] else []) + CodesFrom(s, p + 1)
  }

  lemma CodeIsWord(s: string, p: int)
    requires IpcAt(s, p)
    ensures forall i :: p <= i < p + IpcLen(s, p) ==> IsWordChar(s[i])
  {
  }

  /** Inside a matched code no other match can start. */
  lemma {:induction false} CodesSkipInside(s: string, p: nat, k: nat)
    requires IpcAt(s, p) && p < k <= p + IpcLen(s, p)
    ensures CodesFrom(s, p + 1) == CodesFrom(s, k)
    decreases k - p
  {
    if k > p + 1 {
      CodesSkipInside(s, p, k - 1);
      CodeIsWord(s, p);
      assert IsWordChar(s[k - 2]);
      assert CodesFrom(s, k - 1) == CodesFrom(s, k);
    }
  }

  /** Jumping over a match loses nothing: `findall` sees every match. */
  lemma {:induction false} FindCodesComplete(s: string, p: nat)
    ensures FindCodes(s, p) == CodesFrom(s, p)
    decreases |s| - p
  {
    if p < |s| {
      if IpcAt(s, p) {
        var n := IpcLen(s, p);
        FindCodesComplete(s, p + n);
        CodesSkipInside(s, p, p + n);
        assert FindCodes(s, p) == [CodeAt(s, p)] + FindCodes(s, p + n);
        assert CodesFrom(s, p) == [CodeAt(s, p)] + CodesFrom(s, p + 1);
      } else {
        FindCodesComplete(s, p + 1);
        assert FindCodes(s, p) == FindCodes(s, p + 1);
        assert CodesFrom(s, p) == [] + CodesFrom(s, p + 1);
      }
    }
  }

  /** Every code found is a well-formed IPC code. */
  lemma {:induction false} FindCodesWellFormed(s: string, p: nat)
    ensures forall i :: 0 <= i < |FindCodes(s, p)| ==> IsIpcCode(FindCodes(s, p)[i])
    decreases |s| - p
  {
    if p < |s| {
      if IpcAt(s, p) {
        FindCodesWellFormed(s, p + IpcLen(s, p));
      } else {
        FindCodesWellFormed(s, p + 1);
      }
    }
  }

  /** `code[:4]`. */
  function Prefix4(c: string): (r: string)
    ensures |r| <= 4
  {
    if |c| <= 4 then c else c[..4]
  }

  /** `[code[:4] for code in codes]`. */
  function ShortCodes(codes: seq<string>): (r: seq<string>)
    ensures |r| == |codes|
  {
    if |codes| == 0 then [] else [Prefix4(codes[0])] + ShortCodes(codes[1..])
  }

  /** Every match is at most four characters long, so the `[:4]` truncation
      changes nothing. */
  lemma {:induction false} ShortCodesIdentity(codes: seq<string>)
    requires forall i :: 0 <= i < |codes| ==> IsIpcCode(codes[i])
    ensures ShortCodes(codes) == codes
    decreases |codes|
  {
    if |codes| > 0 {
      ShortCodesIdentity(codes[1..]);
    }
  }

  // ---------------------------------------------------------------------------
  // Counter(...).most_common(1)
  // ---------------------------------------------------------------------------

  /** How often `x` occurs in `xs`. */
  function Count<T(==)>(xs: seq<T>, x: T): nat {
    if |xs| == 0 then 0 else (if xs[0] == x then 1 else 0) + Count(xs[1..], x)
  }

  /** The distinct elements of `xs` in order of first occurrence: the key
      order of a `Counter`. */
  function Dedup<T(==,!new)>(xs: seq<T>): (r: seq<T>)
    ensures forall x :: x in r <==> x in xs
    ensures Distinct(r)
  {
    if |xs| == 0 then []
    else
      var init := Dedup(xs[..|xs| - 1]);
      assert forall x :: x in xs <==> x in xs[..|xs| - 1] || x == xs[|xs| - 1] by {
        assert xs == xs[..|xs| - 1] + [xs[|xs| - 1]];
      }
      if xs[|xs| - 1] in init then init else init + [xs[|xs| - 1]]
  }

  /** The position of the first occurrence of `x`. */
  function FirstIndex<T(==)>(xs: seq<T>, x: T): (i: nat)
    requires x in xs
    ensures i < |xs| && xs[i] == x
    ensures forall k :: 0 <= k < i ==> xs[k] != x
  {
    if xs[0] == x then 0
    else
      var i := 1 + FirstIndex(xs[1..], x);
      assert forall k :: 1 <= k < i ==> xs[k] == xs[1..][k - 1];
      i
  }

  lemma FirstIndexPrefix<T>(xs: seq<T>, y: T, x: T)
    requires x in xs
    ensures FirstIndex(xs + [y], x) == FirstIndex(xs, x)
  {
    var i := FirstIndex(xs, x);
    assert (xs + [y])[i] == x;
  }

  /** `Dedup` lists elements in the order of their first occurrences. */
  lemma {:induction false} DedupOrder<T(!new)>(xs: seq<T>)
    ensures forall a, b :: 0 <= a < b < |Dedup(xs)| ==>
              FirstIndex(xs, Dedup(xs)[a]) < FirstIndex(xs, Dedup(xs)[b])
    decreases |xs|
  {
    if |xs| > 0 {
      var init, last := xs[..|xs| - 1], xs[|xs| - 1];
      var d := Dedup(init);
      DedupOrder(init);
      assert xs == init + [last];
      forall x | x in init
        ensures FirstIndex(xs, x) == FirstIndex(init, x)
      {
        FirstIndexPrefix(init, last, x);
      }
      if last !in d {
        assert last !in init;
        assert FirstIndex(xs, last) == |init|;
        forall a, b | 0 <= a < b < |Dedup(xs)|
          ensures FirstIndex(xs, Dedup(xs)[a]) < FirstIndex(xs, Dedup(xs)[b])
        {
          assert Dedup(xs)[a] == d[a];
          if b < |d| {
            assert Dedup(xs)[b] == d[b];
          }
        }
      }
    }
  }

  /** The counter position `max` picks: the first distinct element of the
      highest count. */
  function MaxCountAt(xs: seq<string>): (i: nat)
    requires |xs| > 0
    ensures i < |Dedup(xs)|
    ensures forall j :: 0 <= j < |Dedup(xs)| ==> Count(xs, Dedup(xs)[j]) <= Count(xs, Dedup(xs)[i])
    ensures forall j :: 0 <= j < i ==> Count(xs, Dedup(xs)[j]) < Count(xs, Dedup(xs)[i])
  {
    assert xs[0] in Dedup(xs);
    FirstMaxIndex(Dedup(xs), c => Count(xs, c))
  }

  /** `Counter(xs).most_common(1)`: `max` over the counter's items, which
      returns the first item of maximal count. Empty input gives no item. */
  function MostCommon(xs: seq<string>): (r: Option<string>)
    ensures r.None? <==> |xs| == 0
    ensures r.Some? ==> r.value in xs
  {
    if |xs| == 0 then None else Some(Dedup(xs)[MaxCountAt(xs)])
  }

  /** The most common element occurs at least as often as any other. */
  lemma {:induction false} MostCommonMaximal(xs: seq<string>)
    requires |xs| > 0
    ensures forall i :: 0 <= i < |xs| ==> Count(xs, xs[i]) <= Count(xs, MostCommon(xs).value)
  {
    var d := Dedup(xs);
    forall j | 0 <= j < |xs|
      ensures Count(xs, xs[j]) <= Count(xs, d[MaxCountAt(xs)])
    {
      assert xs[j] in d;
      var a :| 0 <= a < |d| && d[a] == xs[j];
    }
  }

  /** Every element that first occurs before the most common one occurs
      strictly less often: ties go to the element met first. */
  lemma {:induction false} MostCommonFirst(xs: seq<string>)
    requires |xs| > 0
    ensures forall k :: 0 <= k < FirstIndex(xs, MostCommon(xs).value) ==>
              Count(xs, xs[k]) < Count(xs, MostCommon(xs).value)
  {
    var d := Dedup(xs);
    var i := MaxCountAt(xs);
    DedupOrder(xs);
    forall k | 0 <= k < FirstIndex(xs, d[i])
      ensures Count(xs, xs[k]) < Count(xs, d[i])
    {
      assert xs[k] in d;
      var a :| 0 <= a < |d| && d[a] == xs[k];
      assert FirstIndex(xs, xs[k]) <= k;
      assert a < i;
    }
  }

  /** `extract_main_ipc`: `None` for a missing cell or a cell without a code,
      otherwise the most common code. The `else short_codes[0]` fallback
      cannot be reached, since `most_common(1)` of a non-empty list is never
      empty. */
  function ExtractMainIpc(cell: Option<string>): (r: Option<string>)
    ensures cell.None? ==> r.None?
    ensures r.Some? ==> IsIpcCode(r.value)
  {
    match cell
    case None => None
    case Some(s) =>
      var codes := FindCodes(s, 0);
      if |codes| == 0 then None
      else
        FindCodesWellFormed(s, 0);
        ShortCodesIdentity(codes);
        MostCommon(ShortCodes(codes))
  }

  /** The main IPC is a matched code of maximal count; among codes of that
      count it is the one met first; and there is none exactly when nothing
      matches. */
  lemma ExtractMainIpcSpec(s: string)
    ensures ExtractMainIpc(Some(s)).None? <==> (forall p :: !IpcAt(s, p))
    ensures ExtractMainIpc(Some(s)).Some? ==>
              var codes, m := FindCodes(s, 0), ExtractMainIpc(Some(s)).value;
              && m in codes
              && (forall i :: 0 <= i < |codes| ==> Count(codes, codes[i]) <= Count(codes, m))
              && (forall k :: 0 <= k < FirstIndex(codes, m) ==> Count(codes, codes[k]) < Count(codes, m))
  {
    var codes := FindCodes(s, 0);
    FindCodesComplete(s, 0);
    CodesFromSpec(s, 0);
    if |codes| > 0 {
      ExtractMainIpcCounts(s);
      MostCommonMaximal(codes);
      MostCommonFirst(codes);
    }
  }

  /** On a cell with codes, the result is the most common of the codes found. */
  lemma {:induction false} ExtractMainIpcCounts(s: string)
    requires |FindCodes(s, 0)| > 0
    ensures ExtractMainIpc(Some(s)) == MostCommon(FindCodes(s, 0))
  {
    FindCodesWellFormed(s, 0);
    ShortCodesIdentity(FindCodes(s, 0));
  }

  /** Some code is listed from `p` on exactly when the pattern matches at some
      position at or after `p`. */
  lemma {:induction false} CodesFromSpec(s: string, p: nat)
    ensures |CodesFrom(s, p)| > 0 <==> exists q :: p <= q && IpcAt(s, q)
    decreases |s| - p
  {
    if p < |s| {
      CodesFromSpec(s, p + 1);
      if exists q :: p <= q && IpcAt(s, q) {
        var q :| p <= q && IpcAt(s, q);
        if q > p {
          assert p + 1 <= q;
        }
      }
    }
  }
}

=== FILE: ranking.dfy ===
/**
 * Ranking by a key, as the scripts do it with Python's `sorted(..., reverse=True)`
 * (a stable sort: equal keys keep their original order) followed by a slice
 * `[:k]`, and with Python's `max` (the first maximal element wins).
 */
module Ranking {
  import opened Text

  /** No element occurs twice. */
  predicate Distinct<T(==)>(s: seq<T>) {
    forall i, j :: 0 <= i < j < |s| ==> s[i] != s[j]
  }

  /** Keys never increase from left to right. */
  ghost predicate Descending<T>(s: seq<T>, key: T -> int) {
    forall i, j :: 0 <= i < j < |s| ==> key(s[i]) >= key(s[j])
  }

  /** The elements of `s` whose key is `d`, in their order in `s`. */
  function WithKey<T>(s: seq<T>, key: T -> int, d: int): seq<T>
  {
    if |s| == 0 then []
    else (if key(s[0]) == d then [s[0]] else []) + WithKey(s[1..], key, d)
  }

  lemma {:induction false} WithKeyConcat<T>(a: seq<T>, b: seq<T>, key: T -> int, d: int)
    ensures WithKey(a + b, key, d) == WithKey(a, key, d) + WithKey(b, key, d)
    decreases |a|
  {
    if |a| > 0 {
      assert (a + b)[1..] == a[1..] + b;
      WithKeyConcat(a[1..], b, key, d);
    } else {
      assert a + b == b;
    }
  }

  lemma {:induction false} WithKeyNone<T>(s: seq<T>, key: T -> int, d: int)
    requires forall i :: 0 <= i < |s| ==> key(s[i]) != d
    ensures WithKey(s, key, d) == []
    decreases |s|
  {
    if |s| > 0 {
      WithKeyNone(s[1..], key, d);
    }
  }

  /** Inserts `x` after every leading element whose key is at least `x`'s:
      the step of a stable descending insertion sort. */
  function InsertDesc<T(==)>(s: seq<T>, x: T, key: T -> int): (r: seq<T>)
    ensures |r| == |s| + 1
  {
    if |s| == 0 then [x]
    else if key(s[0]) >= key(x) then [s[0]] + InsertDesc(s[1..], x, key)
    else [x] + s
  }

  /** Inserting into a descending sequence keeps it descending. */
  lemma {:induction false} InsertDescSorted<T>(s: seq<T>, x: T, key: T -> int)
    requires Descending(s, key)
    ensures Descending(InsertDesc(s, x, key), key)
    ensures InsertDesc(s, x, key)[0] == x || (|s| > 0 && InsertDesc(s, x, key)[0] == s[0])
    decreases |s|
  {
    if |s| > 0 && key(s[0]) >= key(x) {
      var rest := InsertDesc(s[1..], x, key);
      InsertDescSorted(s[1..], x, key);
      var r := [s[0]] + rest;
      assert InsertDesc(s, x, key) == r;
      assert key(rest[0]) <= key(s[0]);
      forall i, j | 0 <= i < j < |r|
        ensures key(r[i]) >= key(r[j])
      {
        if i == 0 {
          assert r[j] == rest[j - 1];
        } else {
          assert r[i] == rest[i - 1] && r[j] == rest[j - 1];
        }
      }
    } else if |s| > 0 {
      assert InsertDesc(s, x, key) == [x] + s;
    }
  }

  /** Inserting adds exactly `x`. */
  lemma {:induction false} InsertDescPerm<T>(s: seq<T>, x: T, key: T -> int)
    ensures multiset(InsertDesc(s, x, key)) == multiset(s) + multiset{x}
    decreases |s|
  {
    if |s| > 0 {
      if key(s[0]) >= key(x) {
        InsertDescPerm(s[1..], x, key);
        assert InsertDesc(s, x, key) == [s[0]] + InsertDesc(s[1..], x, key);
        assert s == [s[0]] + s[1..];
      } else {
        assert InsertDesc(s, x, key) == [x] + s;
      }
    }
  }

  /** Python's `sorted(s, key=key, reverse=True)`. */
  function SortDesc<T(==)>(s: seq<T>, key: T -> int): (r: seq<T>)
    ensures |r| == |s|
  {
    if |s| == 0 then []
    else InsertDesc(SortDesc(s[..|s| - 1], key), s[|s| - 1], key)
  }

  /** The sort orders by descending key and is a permutation. */
  lemma {:induction false} SortDescSpec<T>(s: seq<T>, key: T -> int)
    ensures Descending(SortDesc(s, key), key)
    ensures multiset(SortDesc(s, key)) == multiset(s)
    decreases |s|
  {
    if |s| > 0 {
      var init, last := s[..|s| - 1], s[|s| - 1];
      SortDescSpec(init, key);
      InsertDescSorted(SortDesc(init, key), last, key);
      InsertDescPerm(SortDesc(init, key), last, key);
      assert s == init + [last];
    }
  }

  lemma {:induction false} InsertDescStable<T>(s: seq<T>, x: T, key: T -> int, d: int)
    requires Descending(s, key)
    ensures WithKey(InsertDesc(s, x, key), key, d) == WithKey(s + [x], key, d)
    decreases |s|
  {
    if |s| == 0 {
    } else if key(s[0]) >= key(x) {
      InsertDescStable(s[1..], x, key, d);
      InsertPastHead(s, x, key, d);
    } else {
      InsertInFront(s, x, key, d);
    }
  }

  /** The step of `InsertDescStable` where `x` goes past the first element. */
  lemma InsertPastHead<T>(s: seq<T>, x: T, key: T -> int, d: int)
    requires |s| > 0 && key(s[0]) >= key(x)
    requires WithKey(InsertDesc(s[1..], x, key), key, d) == WithKey(s[1..] + [x], key, d)
    ensures WithKey(InsertDesc(s, x, key), key, d) == WithKey(s + [x], key, d)
  {
    var h, t := [s[0]], s[1..];
    assert InsertDesc(s, x, key) == h + InsertDesc(t, x, key);
    WithKeyConcat(h, InsertDesc(t, x, key), key, d);
    ConsSnoc(s, x);
    WithKeyConcat(h, t + [x], key, d);
  }

  /** The step of `InsertDescStable` where `x` outranks every element. */
  lemma InsertInFront<T>(s: seq<T>, x: T, key: T -> int, d: int)
    requires Descending(s, key)
    requires |s| > 0 && key(s[0]) < key(x)
    ensures WithKey(InsertDesc(s, x, key), key, d) == WithKey(s + [x], key, d)
  {
    assert InsertDesc(s, x, key) == [x] + s;
    WithKeyConcat([x], s, key, d);
    WithKeyConcat(s, [x], key, d);
    if key(x) == d {
      WithKeyNone(s, key, d);
    }
  }

  /** The sort is stable: for every key value, the elements carrying it appear
      in the same order before and after sorting. */
  lemma {:induction false} SortDescStable<T>(s: seq<T>, key: T -> int, d: int)
    ensures WithKey(SortDesc(s, key), key, d) == WithKey(s, key, d)
    decreases |s|
  {
    if |s| > 0 {
      var init := s[..|s| - 1];
      var last := s[|s| - 1];
      SortDescSpec(init, key);
      SortDescStable(init, key, d);
      InsertDescStable(SortDesc(init, key), last, key, d);
      WithKeyConcat(SortDesc(init, key), [last], key, d);
      WithKeyConcat(init, [last], key, d);
      assert s == init + [last];
    }
  }

  /** Keeping a prefix keeps a prefix of every key class. */
  lemma {:induction false} WithKeyPrefix<T>(s: seq<T>, n: nat, key: T -> int, d: int)
    requires n <= |s|
    ensures WithKey(s[..n], key, d) <= WithKey(s, key, d)
  {
    assert s == s[..n] + s[n..];
    WithKeyConcat(s[..n], s[n..], key, d);
  }

  function Min(a: int, b: int): int { if a <= b then a else b }

  /** In a descending sequence everything before position `n` ranks at least
      as high as everything from `n` on. */
  lemma PrefixBeatsRest<T>(sorted: seq<T>, key: T -> int, n: nat)
    requires Descending(sorted, key) && n <= |sorted|
    ensures forall x, y :: x in sorted[..n] && y in sorted[n..] ==> key(x) >= key(y)
  {
    forall x, y | x in sorted[..n] && y in sorted[n..]
      ensures key(x) >= key(y)
    {
      var i :| 0 <= i < n && sorted[i] == x;
      var j :| 0 <= j < |sorted| - n && sorted[n..][j] == y;
      assert sorted[n + j] == y;
    }
  }

  /** What is left out of a prefix is exactly the suffix. */
  lemma PrefixRemainder<T>(sorted: seq<T>, s: seq<T>, n: nat)
    requires multiset(sorted) == multiset(s) && n <= |sorted|
    ensures multiset(sorted[..n]) <= multiset(s)
    ensures multiset(s) - multiset(sorted[..n]) == multiset(sorted[n..])
  {
    assert sorted == sorted[..n] + sorted[n..];
  }

  /** The facts about a prefix of the sorted sequence that the selection relies on. */
  lemma SortedPrefixFacts<T>(s: seq<T>, key: T -> int, n: nat)
    requires n <= |s|
    ensures var r := SortDesc(s, key)[..n];
      && Descending(r, key)
      && multiset(r) <= multiset(s)
      && (forall x, y :: x in r && y in multiset(s) - multiset(r) ==> key(x) >= key(y))
      && (forall d :: WithKey(r, key, d) <= WithKey(s, key, d))
  {
    var sorted := SortDesc(s, key);
    var r := sorted[..n];
    SortDescSpec(s, key);
    PrefixBeatsRest(sorted, key, n);
    PrefixRemainder(sorted, s, n);
    forall d
      ensures WithKey(r, key, d) <= WithKey(s, key, d)
    {
      WithKeyPrefix(sorted, n, key, d);
      SortDescStable(s, key, d);
    }
  }

  /** `sorted(s, key=key, reverse=True)[:k]`: the `k` highest-ranked elements
      (all of them when there are fewer), ties resolved by original order. */
  function TopByKey<T(==)>(s: seq<T>, key: T -> int, k: nat): (r: seq<T>)
    ensures |r| == Min(k, |s|)
    ensures Descending(r, key)
    ensures multiset(r) <= multiset(s)
    ensures forall x, y :: x in r && y in multiset(s) - multiset(r) ==> key(x) >= key(y)
    ensures forall d :: WithKey(r, key, d) <= WithKey(s, key, d)
  {
    SortedPrefixFacts(s, key, Min(k, |s|));
    SortDesc(s, key)[..Min(k, |s|)]
  }

  /** A sequence is distinct exactly when no element has multiplicity above one. */
  lemma {:induction false} DistinctMultiset<T>(s: seq<T>)
    ensures Distinct(s) <==> forall x :: multiset(s)[x] <= 1
    decreases |s|
  {
    if |s| > 0 {
      var init := s[..|s| - 1];
      var last := s[|s| - 1];
      DistinctMultiset(init);
      assert s == init + [last];
      assert multiset(s) == multiset(init) + multiset{last};
      if Distinct(s) {
        assert last !in init;
        forall x
          ensures multiset(s)[x] <= 1
        {
          assert Distinct(init);
        }
      }
      if forall x :: multiset(s)[x] <= 1 {
        forall x
          ensures multiset(init)[x] <= 1
        {
          assert multiset(s)[x] <= 1;
        }
        assert last !in init by {
          assert multiset(s)[last] <= 1;
        }
        forall i, j | 0 <= i < j < |s|
          ensures s[i] != s[j]
        {
          if j < |s| - 1 {
            assert s[i] == init[i] && s[j] == init[j];
          } else {
            assert s[i] in init;
          }
        }
      }
    }
  }

  /** Selecting from a distinct sequence yields a distinct sequence. */
  lemma TopByKeyDistinct<T>(s: seq<T>, key: T -> int, k: nat)
    requires Distinct(s)
    ensures Distinct(TopByKey(s, key, k))
  {
    var r := TopByKey(s, key, k);
    DistinctMultiset(s);
    forall x
      ensures multiset(r)[x] <= 1
    {
      assert multiset(r)[x] <= multiset(s)[x];
    }
    DistinctMultiset(r);
  }

  /** Python's `max(xs, key=key)`: the position of the first element whose key
      is maximal. */
  function FirstMaxIndex<T>(xs: seq<T>, key: T -> int): (i: nat)
    requires |xs| > 0
    ensures i < |xs|
    ensures forall j :: 0 <= j < |xs| ==> key(xs[j]) <= key(xs[i])
    ensures forall j :: 0 <= j < i ==> key(xs[j]) < key(xs[i])
  {
    if |xs| == 1 then 0
    else
      var b := FirstMaxIndex(xs[..|xs| - 1], key);
      if key(xs[|xs| - 1]) > key(xs[b]) then |xs| - 1 else b
  }
}

=== FILE: reducer.dfy ===
/**
 * The row loop of PatentscopeApp_Inv.py (step 1): each spreadsheet row yields
 * at most one (applicant, joined inventors) record.
 */
module Reducer {
  import opened Options
  import opened Text
  import opened Names

  /** One spreadsheet row: the `Applicants` and `Inventors` cells, either of
      which may be missing. */
  datatype RawRow = RawRow(applicants: Option<string>, inventors: Option<string>)

  /** One record of `filtered_rows`. */
  datatype Emitted = Emitted(applicant: string, inventors: string)

  /** `fillna('').str.split(';')`: a missing cell becomes [""], never []. */
  function Tokens(cell: Option<string>): (r: seq<string>)
    ensures |r| >= 1
    ensures cell.None? ==> r == [""]
  {
    Split(cell.GetOr(""), ";")
  }

  /** The tokens hold no ';' (so no "; " either) and re-join to the cell. */
  lemma TokensSpec(cell: Option<string>)
    ensures var r := Tokens(cell);
      && (forall i :: 0 <= i < |r| ==> !IsSubstring(Semi, r[i]))
      && (forall i :: 0 <= i < |r| ==> forall j :: 0 <= j < |r[i]| ==> r[i][j] != ';')
      && Join(r, ";") == cell.GetOr("")
  {
    var r := Tokens(cell);
    SplitOnSemicolonPieces(cell.GetOr(""));
    forall i | 0 <= i < |r|
      ensures !IsSubstring(Semi, r[i])
    {
      NoSemicolonNoSeparator(r[i]);
    }
  }

  /** The test of the exact-match skip, on one applicant and one inventor. */
  predicate SameName(applicant: string, inventor: string) {
    Lower(Strip(applicant)) == Lower(Strip(inventor))
  }

  function MatchesSomeInventor(applicant: string, inventors: seq<string>): (r: bool)
    ensures |inventors| == 0 ==> !r
  {
    if |inventors| == 0 then false
    else SameName(applicant, inventors[0]) || MatchesSomeInventor(applicant, inventors[1..])
  }

  lemma {:induction false} MatchesSomeInventorSpec(applicant: string, inventors: seq<string>)
    ensures MatchesSomeInventor(applicant, inventors) <==>
              exists j :: 0 <= j < |inventors| && SameName(applicant, inventors[j])
    decreases |inventors|
  {
    if |inventors| > 0 {
      MatchesSomeInventorSpec(applicant, inventors[1..]);
      assert forall j :: 1 <= j < |inventors| ==> inventors[j] == inventors[1..][j - 1];
    }
  }

  /** `any(a.strip().lower() == v.strip().lower() for a in applicants for v in inventors)`. */
  function AnyExactMatch(applicants: seq<string>, inventors: seq<string>): (r: bool)
    ensures |applicants| == 0 || |inventors| == 0 ==> !r
  {
    if |applicants| == 0 then false
    else MatchesSomeInventor(applicants[0], inventors) || AnyExactMatch(applicants[1..], inventors)
  }

  lemma {:induction false} AnyExactMatchSpec(applicants: seq<string>, inventors: seq<string>)
    ensures AnyExactMatch(applicants, inventors) <==>
              exists i, j :: 0 <= i < |applicants| && 0 <= j < |inventors|
                             && SameName(applicants[i], inventors[j])
    decreases |applicants|
  {
    if |applicants| > 0 {
      AnyExactMatchSpec(applicants[1..], inventors);
      MatchesSomeInventorSpec(applicants[0], inventors);
      assert forall i :: 1 <= i < |applicants| ==> applicants[i] == applicants[1..][i - 1];
    }
  }

  /** `k` is the position of the first applicant not similar to any inventor. */
  ghost predicate FirstDissimilar(applicants: seq<string>, inventors: seq<string>, k: int) {
    && 0 <= k < |applicants|
    && !HasSimilarValue(applicants[k], inventors)
    && forall m :: 0 <= m < k ==> HasSimilarValue(applicants[m], inventors)
  }

  /** `[clean_applicant_name(a) for a in applicants if not has_similar_value(a, inventors)]`:
      non-empty exactly when some applicant is dissimilar, and then headed by
      the cleaned first dissimilar applicant. */
  function Survivors(applicants: seq<string>, inventors: seq<string>): (r: seq<string>)
    ensures |r| <= |applicants|
    ensures forall i :: 0 <= i < |r| ==> IsStripped(r[i])
  {
    if |applicants| == 0 then []
    else
      var rest := Survivors(applicants[1..], inventors);
      if !HasSimilarValue(applicants[0], inventors) then
        [CleanApplicantName(applicants[0])] + rest
      else
        rest
  }

  /** The survivors are non-empty exactly when some applicant is dissimilar,
      and are then headed by the cleaned first dissimilar applicant. */
  lemma {:induction false} SurvivorsHead(applicants: seq<string>, inventors: seq<string>)
    ensures |Survivors(applicants, inventors)| > 0 <==>
              exists k :: 0 <= k < |applicants| && !HasSimilarValue(applicants[k], inventors)
    ensures forall k :: FirstDissimilar(applicants, inventors, k) ==>
              |Survivors(applicants, inventors)| > 0
              && Survivors(applicants, inventors)[0] == CleanApplicantName(applicants[k])
  {
    SurvivorsNonEmpty(applicants, inventors);
    forall k | FirstDissimilar(applicants, inventors, k)
      ensures |Survivors(applicants, inventors)| > 0
      ensures Survivors(applicants, inventors)[0] == CleanApplicantName(applicants[k])
    {
      SurvivorsFirst(applicants, inventors, k);
    }
  }

  lemma {:induction false} SurvivorsNonEmpty(applicants: seq<string>, inventors: seq<string>)
    ensures |Survivors(applicants, inventors)| > 0 <==>
              exists k :: 0 <= k < |applicants| && !HasSimilarValue(applicants[k], inventors)
    decreases |applicants|
  {
    if |applicants| > 0 {
      var tail := applicants[1..];
      SurvivorsNonEmpty(tail, inventors);
      if HasSimilarValue(applicants[0], inventors) {
        assert Survivors(applicants, inventors) == Survivors(tail, inventors);
        if exists k :: 0 <= k < |applicants| && !HasSimilarValue(applicants[k], inventors) {
          var k :| 0 <= k < |applicants| && !HasSimilarValue(applicants[k], inventors);
          assert tail[k - 1] == applicants[k];
        }
        if exists k :: 0 <= k < |tail| && !HasSimilarValue(tail[k], inventors) {
          var k :| 0 <= k < |tail| && !HasSimilarValue(tail[k], inventors);
          assert applicants[k + 1] == tail[k];
        }
      } else {
        assert |Survivors(applicants, inventors)| > 0;
        assert !HasSimilarValue(applicants[0], inventors);
      }
    }
  }

  lemma {:induction false} SurvivorsFirst(applicants: seq<string>, inventors: seq<string>, k: int)
    requires FirstDissimilar(applicants, inventors, k)
    ensures |Survivors(applicants, inventors)| > 0
    ensures Survivors(applicants, inventors)[0] == CleanApplicantName(applicants[k])
    decreases k
  {
    if k > 0 {
      assert HasSimilarValue(applicants[0], inventors);
      var tail := applicants[1..];
      forall m | 0 <= m < k - 1
        ensures HasSimilarValue(tail[m], inventors)
      {
        assert tail[m] == applicants[m + 1];
      }
      assert FirstDissimilar(tail, inventors, k - 1);
      SurvivorsFirst(tail, inventors, k - 1);
      assert Survivors(applicants, inventors) == Survivors(tail, inventors);
    } else {
      assert Survivors(applicants, inventors)
          == [CleanApplicantName(applicants[0])] + Survivors(applicants[1..], inventors);
    }
  }

  /** The body of the row loop: no record when an applicant equals an inventor;
      otherwise a record for the cleaned first dissimilar applicant, unless that
      cleans to the empty string (which Python treats as false). */
  function ReduceRow(applicants: seq<string>, inventors: seq<string>): (r: Option<Emitted>)
    ensures AnyExactMatch(applicants, inventors) ==> r.None?
    ensures r.Some? ==> r.value.applicant != "" && IsStripped(r.value.applicant)
    ensures r.Some? ==> r.value.inventors == Join(inventors, Semi)
  {
    if AnyExactMatch(applicants, inventors) then None
    else
      var survivors := Survivors(applicants, inventors);
      if |survivors| > 0 && survivors[0] != "" then
        Some(Emitted(survivors[0], Join(inventors, Semi)))
      else None
  }

  /** The record of a row names the cleaned first dissimilar applicant; no
      record means an exact match, no dissimilar applicant at all, or a first
      dissimilar applicant that cleans to "". */
  lemma {:induction false} ReduceRowSelects(applicants: seq<string>, inventors: seq<string>)
    ensures var r := ReduceRow(applicants, inventors);
      && (r.Some? ==> exists k :: FirstDissimilar(applicants, inventors, k)
                                 && r.value.applicant == CleanApplicantName(applicants[k]))
      && (r.None? ==> || AnyExactMatch(applicants, inventors)
                      || (forall k :: 0 <= k < |applicants| ==> HasSimilarValue(applicants[k], inventors))
                      || (exists k :: FirstDissimilar(applicants, inventors, k) && CleanApplicantName(applicants[k]) == ""))
  {
    FirstDissimilarExists(applicants, inventors);
    SurvivorsHead(applicants, inventors);
  }

  /** When some applicant is dissimilar, there is a first one. */
  lemma {:induction false} FirstDissimilarExists(applicants: seq<string>, inventors: seq<string>)
    ensures (exists k :: 0 <= k < |applicants| && !HasSimilarValue(applicants[k], inventors))
            ==> exists k :: FirstDissimilar(applicants, inventors, k)
    decreases |applicants|
  {
    if |applicants| > 0 && HasSimilarValue(applicants[0], inventors) {
      FirstDissimilarExists(applicants[1..], inventors);
      assert forall k :: 1 <= k < |applicants| ==> applicants[k] == applicants[1..][k - 1];
      if exists k :: FirstDissimilar(applicants[1..], inventors, k) {
        var k :| FirstDissimilar(applicants[1..], inventors, k);
        assert FirstDissimilar(applicants, inventors, k + 1);
      }
    } else if |applicants| > 0 {
      assert FirstDissimilar(applicants, inventors, 0);
    }
  }

  /** One spreadsheet row through the loop body. */
  function ReduceRawRow(row: RawRow): Option<Emitted> {
    ReduceRow(Tokens(row.applicants), Tokens(row.inventors))
  }

  /** The outcome of the loop body on each row, in row order. */
  function Outcomes(rows: seq<RawRow>): (r: seq<Option<Emitted>>)
    ensures |r| == |rows|
  {
    seq(|rows|, i requires 0 <= i < |rows| => ReduceRawRow(rows[i]))
  }

  /** The whole loop: the records of the rows that produce one, in row order.
      Each row contributes at most one record. */
  function ReduceRows(rows: seq<RawRow>): (r: seq<Emitted>)
    ensures |r| <= |rows|
  {
    Somes(Outcomes(rows))
  }

  /** Every record comes from a row, and every row that yields a record has
      it in the output. */
  lemma {:induction false} ReduceRowsProvenance(rows: seq<RawRow>)
    ensures forall i :: 0 <= i < |ReduceRows(rows)| ==>
              exists j :: 0 <= j < |rows| && ReduceRawRow(rows[j]) == Some(ReduceRows(rows)[i])
    ensures forall j :: 0 <= j < |rows| && ReduceRawRow(rows[j]).Some? ==>
              ReduceRawRow(rows[j]).value in ReduceRows(rows)
  {
    var xs := Outcomes(rows);
    SomesSound(xs);
    SomesComplete(xs);
    forall i | 0 <= i < |ReduceRows(rows)|
      ensures exists j :: 0 <= j < |rows| && ReduceRawRow(rows[j]) == Some(ReduceRows(rows)[i])
    {
      var j :| 0 <= j < |xs| && xs[j] == Some(Somes(xs)[i]);
      assert xs[j] == ReduceRawRow(rows[j]);
    }
    forall j | 0 <= j < |rows| && ReduceRawRow(rows[j]).Some?
      ensures ReduceRawRow(rows[j]).value in ReduceRows(rows)
    {
      assert xs[j] == ReduceRawRow(rows[j]);
    }
    assert forall i :: 0 <= i < |ReduceRows(rows)| ==>
              exists j :: 0 <= j < |rows| && ReduceRawRow(rows[j]) == Some(ReduceRows(rows)[i]);
  }

  /** The inventors of an emitted record, re-split on "; " as the group-by
      does, are exactly the tokens of the row's `Inventors` cell. */
  lemma {:induction false} EmittedInventorsRoundTrip(row: RawRow)
    ensures ReduceRawRow(row).Some? ==>
              Split(ReduceRawRow(row).value.inventors, Semi) == Tokens(row.inventors)
  {
    if ReduceRawRow(row).Some? {
      TokensSpec(row.inventors);
      SplitJoinTokens(Tokens(row.inventors));
    }
  }

  /** A record is emitted exactly when its row has no exact applicant/inventor
      match and its first dissimilar applicant cleans to a non-empty name. */
  lemma EmitsExactly(applicants: seq<string>, inventors: seq<string>)
    ensures ReduceRow(applicants, inventors).Some? <==>
              && !AnyExactMatch(applicants, inventors)
              && exists k :: FirstDissimilar(applicants, inventors, k) && CleanApplicantName(applicants[k]) != ""
  {
    ReduceRowSelects(applicants, inventors);
    if !AnyExactMatch(applicants, inventors) {
      if k :| FirstDissimilar(applicants, inventors, k) && CleanApplicantName(applicants[k]) != "" {
        SurvivorsHead(applicants, inventors);
        var s := Survivors(applicants, inventors);
        assert |s| > 0 && s[0] == CleanApplicantName(applicants[k]);
      }
    }
  }
}

=== FILE: text.dfy ===
/**
 * The Python `str` operations the scripts rely on, over ASCII text:
 * `lower`, `strip`, `find`, `rfind`, `in`, `endswith`, `split` and `join`.
 */
module Text {
  import opened Options

  /** Python's `str.isspace` restricted to ASCII: tab..carriage return, the four
      separator controls 0x1C..0x1F, and space. */
  predicate IsSpace(c: char) {
    (9 <= c as int <= 13) || (28 <= c as int <= 32)
  }

  predicate IsUpper(c: char) { 'A' <= c <= 'Z' }

  predicate IsDigit(c: char) { '0' <= c <= '9' }

  /** The class `\w` of Python regular expressions, restricted to ASCII. */
  predicate IsWordChar(c: char) {
    ('a' <= c <= 'z') || IsUpper(c) || IsDigit(c) || c == '_'
  }

  /** ASCII case folding of one character: an upper-case letter becomes the
      same letter in lower case, and every other character is left alone. */
  function LowerChar(c: char): (r: char)
    ensures !IsUpper(r)
    ensures IsUpper(c) ==> 'a' <= r <= 'z' && r as int - 'a' as int == c as int - 'A' as int
    ensures !IsUpper(c) ==> r == c
  {
    if IsUpper(c) then (c as int + 32) as char else c
  }

  /** `str.lower()` on ASCII: the length never changes. */
  function Lower(s: string): (r: string)
    ensures |r| == |s|
  {
    if |s| == 0 then [] else [LowerChar(s[0])] + Lower(s[1..])
  }

  /** `str.lower()` works character by character. */
  lemma {:induction false} LowerAt(s: string)
    ensures forall i :: 0 <= i < |s| ==> Lower(s)[i] == LowerChar(s[i])
    decreases |s|
  {
    if |s| > 0 {
      LowerAt(s[1..]);
    }
  }

  /** Two strings with the same characters after `LowerChar` have the same `Lower`. */
  lemma LowerByChars(s: string, r: string)
    requires |r| == |s|
    requires forall i :: 0 <= i < |s| ==> r[i] == LowerChar(s[i])
    ensures Lower(s) == r
  {
    LowerAt(s);
  }

  lemma LowerKeepsSpace(c: char)
    ensures IsSpace(LowerChar(c)) == IsSpace(c)
  {
  }

  // ---------------------------------------------------------------------------
  // strip
  // ---------------------------------------------------------------------------

  /** No leading and no trailing whitespace. */
  predicate IsStripped(s: string) {
    |s| == 0 || (!IsSpace(s[0]) && !IsSpace(s[|s| - 1]))
  }

  /** The first position at or after `i` that does not hold whitespace (or `|s|`). */
  function SkipSpaces(s: string, i: nat): (k: nat)
    requires i <= |s|
    ensures i <= k <= |s|
    ensures forall m :: i <= m < k ==> IsSpace(s[m])
    ensures k < |s| ==> !IsSpace(s[k])
    decreases |s| - i
  {
    if i == |s| || !IsSpace(s[i]) then i else SkipSpaces(s, i + 1)
  }

  /** The end of `s[lo..j]` once its trailing whitespace is dropped. */
  function SkipSpacesBack(s: string, lo: nat, j: nat): (k: nat)
    requires lo <= j <= |s|
    ensures lo <= k <= j
    ensures forall m :: k <= m < j ==> IsSpace(s[m])
    ensures k > lo ==> !IsSpace(s[k - 1])
    decreases j
  {
    if j == lo || !IsSpace(s[j - 1]) then j else SkipSpacesBack(s, lo, j - 1)
  }

  /** How many whitespace characters `str.strip()` removes from the front. */
  function LeadingSpaces(s: string): (k: nat)
    ensures k <= |s|
  {
    SkipSpaces(s, 0)
  }

  /** `str.strip()`: the slice of `s` that neither starts nor ends with
      whitespace, everything cut away being whitespace (see `StripCuts`). */
  function Strip(s: string): (r: string)
    ensures IsStripped(r)
    ensures |r| <= |s|
  {
    var lo := SkipSpaces(s, 0);
    s[lo..SkipSpacesBack(s, lo, |s|)]
  }

  /** `r` is `s` with its first `k` characters and everything after `k + |r|`
      cut away, and every character cut away is whitespace. */
  ghost predicate CutBySpaces(s: string, r: string, k: int) {
    && 0 <= k && k + |r| <= |s| && r == s[k..k + |r|]
    && (forall m :: 0 <= m < k ==> IsSpace(s[m]))
    && (forall m :: k + |r| <= m < |s| ==> IsSpace(s[m]))
  }

  /** `str.strip()` removes whitespace only, and only at both ends. */
  lemma StripCuts(s: string)
    ensures CutBySpaces(s, Strip(s), LeadingSpaces(s))
  {
  }

  /** Stripping text that is already stripped changes nothing. */
  lemma StripStripped(s: string)
    requires IsStripped(s)
    ensures Strip(s) == s
  {
    assert SkipSpaces(s, 0) == 0;
    assert SkipSpacesBack(s, 0, |s|) == |s|;
  }

  /** Stripping a prefix of a stripped string yields a prefix of it: the cut can
      only lose characters at the end. */
  lemma StripPrefixOfStripped(s: string, k: nat)
    requires IsStripped(s) && k <= |s|
    ensures var r := Strip(s[..k]); |r| <= k && r == s[..|r|]
  {
    var p := s[..k];
    assert SkipSpaces(p, 0) == 0;
  }

  /** Skipping whitespace finds the same positions before and after `lower`. */
  lemma {:induction false} LowerSkipSpaces(s: string, i: nat)
    requires i <= |s|
    ensures SkipSpaces(Lower(s), i) == SkipSpaces(s, i)
    decreases |s| - i
  {
    LowerAt(s);
    if i < |s| {
      LowerKeepsSpace(s[i]);
      LowerSkipSpaces(s, i + 1);
    }
  }

  lemma {:induction false} LowerSkipSpacesBack(s: string, lo: nat, j: nat)
    requires lo <= j <= |s|
    ensures SkipSpacesBack(Lower(s), lo, j) == SkipSpacesBack(s, lo, j)
    decreases j
  {
    LowerAt(s);
    if j > lo {
      LowerKeepsSpace(s[j - 1]);
      LowerSkipSpacesBack(s, lo, j - 1);
    }
  }

  lemma {:induction false} LowerSlice(s: string, a: nat, b: nat)
    requires a <= b <= |s|
    ensures Lower(s[a..b]) == Lower(s)[a..b]
  {
    LowerAt(s);
    var m := Lower(s)[a..b];
    forall i | 0 <= i < b - a
      ensures m[i] == LowerChar(s[a..b][i])
    {
      assert m[i] == Lower(s)[a + i];
    }
    LowerByChars(s[a..b], m);
  }

  /** Case folding and stripping commute on ASCII. */
  lemma LowerStripCommute(s: string)
    ensures Lower(Strip(s)) == Strip(Lower(s))
  {
    var lo := SkipSpaces(s, 0);
    LowerSkipSpaces(s, 0);
    LowerSkipSpacesBack(s, lo, |s|);
    LowerSlice(s, lo, SkipSpacesBack(s, lo, |s|));
  }

  // ---------------------------------------------------------------------------
  // occurrences, find, rfind, in, endswith
  // ---------------------------------------------------------------------------

  /** `pat` occurs in `s` starting at index `m`. */
  predicate OccursAt(pat: string, s: string, m: int) {
    0 <= m && m + |pat| <= |s| && s[m..m + |pat|] == pat
  }

  /** Python's `pat in s`. */
  ghost predicate IsSubstring(pat: string, s: string) {
    exists m :: OccursAt(pat, s, m)
  }

  /** Python's `s.endswith(suffix)`: `s` is some text followed by `suffix`,
      and then the last occurrence of `suffix` in `s` is that final one. */
  function EndsWith(s: string, suffix: string): (r: bool)
    ensures r <==> exists t :: s == t + suffix
    ensures r <==> OccursAt(suffix, s, |s| - |suffix|)
    ensures r ==> RFind(s, suffix) == |s| - |suffix|
  {
    if |suffix| <= |s| && s[|s| - |suffix|..] == suffix then
      assert s == s[..|s| - |suffix|] + suffix;
      assert OccursAt(suffix, s, |s| - |suffix|);
      true
    else
      false
  }

  /** `pat in s`, scanning the start positions from `from` onwards. */
  function ContainsFrom(s: string, pat: string, from: nat): (r: bool)
    ensures r <==> exists m :: from <= m && OccursAt(pat, s, m)
    decreases |s| - from
  {
    if from + |pat| > |s| then false
    else if s[from..from + |pat|] == pat then assert OccursAt(pat, s, from); true
    else ContainsFrom(s, pat, from + 1)
  }

  function Contains(s: string, pat: string): (r: bool)
    ensures r <==> IsSubstring(pat, s)
  {
    ContainsFrom(s, pat, 0)
  }

  /** `s.find(pat, from)`: the first occurrence at or after `from`. */
  function FindFrom(s: string, pat: string, from: nat): (r: Option<nat>)
    ensures r.Some? ==> from <= r.value && OccursAt(pat, s, r.value)
    ensures r.Some? ==> forall m :: from <= m < r.value ==> !OccursAt(pat, s, m)
    ensures r.None? ==> forall m :: from <= m ==> !OccursAt(pat, s, m)
    decreases |s| - from
  {
    if from + |pat| > |s| then None
    else if s[from..from + |pat|] == pat then Some(from)
    else FindFrom(s, pat, from + 1)
  }

  /** `s.rfind(pat)` over start positions `0 .. upto`: the last occurrence, or -1. */
  function RFindUpTo(s: string, pat: string, upto: int): (r: int)
    ensures r == -1 || 0 <= r <= upto
    ensures r >= 0 ==> OccursAt(pat, s, r)
    ensures forall m :: r < m <= upto ==> !OccursAt(pat, s, m)
    decreases upto + 1
  {
    if upto < 0 then -1
    else if OccursAt(pat, s, upto) then upto
    else RFindUpTo(s, pat, upto - 1)
  }

  /** `s.rfind(pat)`: the index of the last occurrence, or -1 when there is none. */
  function RFind(s: string, pat: string): (r: int)
    ensures -1 <= r
    ensures r >= 0 ==> OccursAt(pat, s, r)
    ensures forall m :: r < m ==> !OccursAt(pat, s, m)
    ensures r == -1 <==> !IsSubstring(pat, s)
  {
    RFindUpTo(s, pat, |s| - |pat|)
  }

  /** Python's slice `s[:k]`, where a negative `k` counts from the end. */
  function SliceTo(s: string, k: int): (r: string)
    ensures |r| <= |s| && r == s[..|r|]
    ensures 0 <= k ==> |r| == if k <= |s| then k else |s|
    ensures k < 0 ==> |r| == if |s| + k < 0 then 0 else |s| + k
  {
    if k < 0 then s[..if |s| + k < 0 then 0 else |s| + k]
    else if k <= |s| then s[..k]
    else s
  }

  // ---------------------------------------------------------------------------
  // split and join
  // ---------------------------------------------------------------------------

  /** `sep.join(toks)`. */
  function Join(toks: seq<string>, sep: string): string
  {
    if |toks| == 0 then ""
    else if |toks| == 1 then toks[0]
    else toks[0] + sep + Join(toks[1..], sep)
  }

  /** `s.split(sep)` for a non-empty separator: the pieces between the
      successive leftmost occurrences of `sep`. There is always at least one
      piece, no piece contains `sep`, and joining the pieces gives `s` back. */
  function Split(s: string, sep: string): (r: seq<string>)
    requires |sep| > 0
    ensures |r| >= 1
    ensures Join(r, sep) == s
    ensures forall i :: 0 <= i < |r| ==> !IsSubstring(sep, r[i])
    decreases |s|
  {
    match FindFrom(s, sep, 0)
    case None => [s]
    case Some(k) =>
      var head := s[..k];
      var rest := Split(s[k + |sep|..], sep);
      assert s == head + sep + s[k + |sep|..];
      NoOccurrenceBeforeFirst(s, sep, k);
      [head] + rest
  }

  lemma NoOccurrenceBeforeFirst(s: string, sep: string, k: nat)
    requires |sep| > 0 && k <= |s|
    requires forall m :: 0 <= m < k ==> !OccursAt(sep, s, m)
    ensures !IsSubstring(sep, s[..k])
  {
    forall m
      ensures !OccursAt(sep, s[..k], m)
    {
      if 0 <= m && m + |sep| <= k {
        assert s[..k][m..m + |sep|] == s[m..m + |sep|];
        assert !OccursAt(sep, s, m);
      }
    }
  }

  /** The separator used between inventor names by the scripts. */
  const Semi: string := "; "

  /** A string with no occurrence of "; " at all splits into itself. */
  lemma SplitNoSeparator(t: string)
    requires !IsSubstring(Semi, t)
    ensures Split(t, Semi) == [t]
  {
  }

  /** The first occurrence is the only occurrence with none before it. */
  lemma FirstOccurrence(s: string, pat: string, k: nat)
    requires OccursAt(pat, s, k)
    requires forall m :: 0 <= m < k ==> !OccursAt(pat, s, m)
    ensures FindFrom(s, pat, 0) == Some(k)
  {
  }

  /** In `x + "; " + y` the first "; " is the first one of `x`, or else the
      joint itself: an occurrence cannot start on the last character of `x`,
      since the one after it is ';' and not ' '. */
  lemma FirstSeparatorOfJoint(x: string, y: string)
    ensures FindFrom(x + Semi + y, Semi, 0)
         == (match FindFrom(x, Semi, 0) case None => Some(|x|) case Some(k) => Some(k))
  {
    var s := x + Semi + y;
    var k := match FindFrom(x, Semi, 0) case None => |x| case Some(k) => k;
    assert k <= |x|;
    assert OccursAt(Semi, s, k) by {
      if k < |x| {
        assert s[k..k + 2] == x[k..k + 2];
      } else {
        assert s[k..k + 2] == Semi;
      }
    }
    forall m | 0 <= m < k
      ensures !OccursAt(Semi, s, m)
    {
      if m + 2 <= |x| {
        assert s[m..m + 2] == x[m..m + 2];
        assert !OccursAt(Semi, x, m);
      } else {
        assert s[m..m + 2][1] == ';';
      }
    }
    FirstOccurrence(s, Semi, k);
  }

  /** Because "; " cannot overlap itself, splitting `x + "; " + y` on "; "
      splits `x` and `y` independently: no occurrence straddles the joint. */
  lemma {:induction false} SplitJoint(x: string, y: string)
    ensures Split(x + Semi + y, Semi) == Split(x, Semi) + Split(y, Semi)
    decreases |x|
  {
    FirstSeparatorOfJoint(x, y);
    var f := FindFrom(x, Semi, 0);
    if f.None? {
      SplitJointLast(x, y);
    } else {
      var k := f.value;
      var t := x[k + 2..];
      assert OccursAt(Semi, x, k);
      JointSlices(x, y, k);
      SplitStep(x + Semi + y, k);
      SplitStep(x, k);
      SplitJoint(t, y);
      PieceFirst(Split(x + Semi + y, Semi), Split(x, Semi), x[..k], Split(t, Semi), Split(y, Semi));
    }
  }

  /** `x` holds no separator: the joint is the first one. */
  lemma SplitJointLast(x: string, y: string)
    requires FindFrom(x, Semi, 0).None?
    requires FindFrom(x + Semi + y, Semi, 0) == Some(|x|)
    ensures Split(x + Semi + y, Semi) == Split(x, Semi) + Split(y, Semi)
  {
    var s := x + Semi + y;
    assert s[..|x|] == x && s[|x| + 2..] == y;
    SplitStep(s, |x|);
  }

  /** Regrouping the pieces once the first one is split off. */
  lemma PieceFirst(whole: seq<string>, left: seq<string>, p: string, mid: seq<string>, right: seq<string>)
    requires whole == [p] + (mid + right)
    requires left == [p] + mid
    ensures whole == left + right
  {
  }

  lemma JointSlices(x: string, y: string, k: nat)
    requires k + 2 <= |x|
    ensures (x + Semi + y)[..k] == x[..k]
    ensures (x + Semi + y)[k + 2..] == x[k + 2..] + Semi + y
  {
  }

  /** One step of `Split` at a known first separator. */
  lemma SplitStep(s: string, k: nat)
    requires FindFrom(s, Semi, 0) == Some(k)
    ensures Split(s, Semi) == [s[..k]] + Split(s[k + 2..], Semi)
  {
  }

  /** Joining pieces with "; " and splitting on "; " gives back the
      concatenation of the pieces' own splits. */
  lemma {:induction false} SplitJoin(xs: seq<string>)
    requires |xs| >= 1
    ensures Split(Join(xs, Semi), Semi) == Flatten(SplitAll(xs))
    decreases |xs|
  {
    if |xs| > 1 {
      SplitJoin(xs[1..]);
      SplitJoint(xs[0], Join(xs[1..], Semi));
      assert SplitAll(xs) == [Split(xs[0], Semi)] + SplitAll(xs[1..]);
    } else {
      assert SplitAll(xs) == [Split(xs[0], Semi)];
      assert Flatten(SplitAll(xs)) == Split(xs[0], Semi) + Flatten([]);
    }
  }

  /** Round trip: tokens free of "; " survive a join and a split unchanged. */
  lemma {:induction false} SplitJoinTokens(toks: seq<string>)
    requires |toks| >= 1
    requires forall i :: 0 <= i < |toks| ==> !IsSubstring(Semi, toks[i])
    ensures Split(Join(toks, Semi), Semi) == toks
    decreases |toks|
  {
    SplitNoSeparator(toks[0]);
    if |toks| > 1 {
      SplitJoinTokens(toks[1..]);
      SplitJoint(toks[0], Join(toks[1..], Semi));
      assert toks == [toks[0]] + toks[1..];
    }
  }

  /** A token free of ';' is certainly free of "; ". */
  lemma NoSemicolonNoSeparator(t: string)
    requires forall i :: 0 <= i < |t| ==> t[i] != ';'
    ensures !IsSubstring(Semi, t)
  {
    forall m
      ensures !OccursAt(Semi, t, m)
    {
      if 0 <= m && m + 2 <= |t| {
        assert t[m..m + 2][0] == t[m];
      }
    }
  }

  /** The pieces of a split on ";" contain no ';'. */
  lemma SplitOnSemicolonPieces(s: string)
    ensures forall i :: 0 <= i < |Split(s, ";")| ==> forall j :: 0 <= j < |Split(s, ";")[i]| ==> Split(s, ";")[i][j] != ';'
  {
    var r := Split(s, ";");
    forall i, j | 0 <= i < |r| && 0 <= j < |r[i]|
      ensures r[i][j] != ';'
    {
      if r[i][j] == ';' {
        assert OccursAt(";", r[i], j);
      }
    }
  }

  function SplitAll(xs: seq<string>): (r: seq<seq<string>>)
    ensures |r| == |xs|
    ensures forall i :: 0 <= i < |xs| ==> r[i] == Split(xs[i], Semi)
  {
    if |xs| == 0 then [] else [Split(xs[0], Semi)] + SplitAll(xs[1..])
  }

  function Flatten<T>(xss: seq<seq<T>>): seq<T>
  {
    if |xss| == 0 then [] else xss[0] + Flatten(xss[1..])
  }

  /** The elements of a sequence, as a set (Python's `set(list)`). */
  function Elems<T>(s: seq<T>): set<T>
  {
    set x | x in s
  }

  // ---------------------------------------------------------------------------
  // Sequence facts used across the model
  // ---------------------------------------------------------------------------

  /** The elements of a concatenation are those of its parts. */
  lemma {:induction false} ElemsAppend<T>(a: seq<T>, b: seq<T>)
    ensures Elems(a + b) == Elems(a) + Elems(b)
  {
    assert forall x :: x in a + b <==> x in a || x in b;
  }

  /** Splitting the head off a concatenation. */
  lemma TailConcat<T>(a: seq<T>, b: seq<T>)
    requires |a| > 0
    ensures (a + b)[0] == a[0] && (a + b)[1..] == a[1..] + b
  {
  }

  /** Concatenation is associative. */
  lemma Regroup<T>(p: seq<T>, q: seq<T>, r: seq<T>)
    ensures p + (q + r) == (p + q) + r
  {
  }

  /** Appending at the back commutes with splitting off the head. */
  lemma ConsSnoc<T>(s: seq<T>, x: T)
    requires |s| > 0
    ensures s + [x] == [s[0]] + (s[1..] + [x])
  {
  }
}
